=== FILE: README.md ===
# A Dafny model of the bee Gate.com Earn watcher

The bot "bee" polls the Gate.com Earn marketplace for the fixed-term lending
products of the coins its Telegram subscribers watch. When a coin's products
change between "on sale" and "sold out", it tells the subscriber. While the
marketplace API is failing, it raises one alert, and it announces the
recovery once.

This project models the logic of that bot as immutable datatypes and pure
functions, and proves their contracts:

| module | file | what it models |
|---|---|---|
| `Wrappers` | wrappers.dfy | `Option` and `Result` |
| `Json` | json.dfy | the values `json.loads` returns, Python's numeric `==`, `dict.get` |
| `PyStr` | pystr.dfy | the `str` methods the bot uses: `strip`, `split` on one separator, `replace` of one character, `lower`, `upper` |
| `ParserGate` | parser_gate.py | the threshold cache, APR parsing and cleaning, the envelope probe, sale-status extraction, single-token selection, the per-page threshold filter, and the best-effort page merge of a threshold scan |
| `Models` | models.py | `TokenStatus`: construction, classification, glyph and phrase, the display rule for the APR, equality and hash, and the stored form |
| `Utils` | utils.py | the rate limiter as a single-caller clock model, and `retry_with_backoff` over a given sequence of attempt outcomes |
| `Database` | database.py | the `subscribers` and `watches` tables as maps keyed by chat and by `(chat, coin)` |
| `WatchRegistry` | telegram_bot.py | `BotState`: the memory copies written through to the store, and the failure counters and alert flags |
| `Monitor` | telegram_bot.py | one pass of `_check_once`, as a fold over the watch snapshot followed by the recovery step |
| `TickerLookup` | telegram_bot.py | validation of a plain-text ticker, and the subscription it creates |
| `Config` | config.py | `validate` as an error and warning classifier, and `get_admin_chat_ids` |

Effects become data:
- Clock readings are parameters: `now`, `at`, `woke`, `storedAt`.
- What a network call did is an input value:
  - `FetchOutcome` for a token lookup.
  - `PageOutcome` for a page of a scan.
  - `Attempt` for one call under the retry policy.
- Sleeps are recorded in a list, never performed.
- Messages the bot would send are a list of `Notice` values.
- `float(text)` and `str(value)` are the fields of a `Builtins` parameter.
- `str.isalnum` is a parameter, given per character.

A stored status is `Stored`: either the JSON object `to_string` writes, or any other text. Examples of other text are the placeholder `"no_data"` and the empty string.

Three behaviours of the code a reader may not expect:
- **Repeated records.** Feeding the same record twice gives at most one write and at most one notice (`Monitor.SameRecordTwiceIsSilent`). But the stored form carries the timestamp. So the same fixed list observed at a later clock reading is written again, without a notice (`Monitor.NewTimestampRewritesSilently`).
- **Fixed constants.** The cache lifetime (300 s) and the 429 pause (60 s) are literals in parser_gate.py and utils.py, not the configuration values of the same name.
- **The "unknown" phrase.** This phrase quotes the list itself. So reordering the list leaves the glyph and the other phrases unchanged, and changes only that quoted payload (`Models.ClassificationIgnoresOrder`).

## Model

| member | source | states |
|---|---|---|
| Json.Norm | models.py:111-131 | bool, int and float values are sent to one numeric form, the same form for values Python's `==` identifies; every other value is left alone |
| Json.EqualsIntIsPythonEquality | models.py:111-131 | a value equals the integer code `k` exactly when it is `k`, `k.0`, or the bool Python identifies with `k` |
| Json.Get | parser_gate.py:75 | `dict.get` yields a value exactly when the key is present, and then the stored value |
| PyStr.Strip | config.py:152 | the stripped text takes its characters from the input, neither starts nor ends with whitespace, and is empty exactly when the input is all whitespace |
| PyStr.StripIsTrimmedInfix | config.py:152 | the stripped text is one contiguous stretch of the input with only whitespace before and after it |
| PyStr.Split | config.py:152 | at least one piece, no piece contains the separator, and joining the pieces with it gives the input back |
| PyStr.Replace | parser_gate.py:65-66 | replacing a character by text without it removes every occurrence, and never lengthens the text when the replacement has at most one character |
| PyStr.ReplaceAppend | parser_gate.py:65-66 | replacement works character by character: it distributes over concatenation |
| PyStr.Lower | models.py:34 | same length, each ASCII capital is lowered, and no ASCII capital is left |
| PyStr.LowerIdempotent | models.py:34 | lower-casing twice is lower-casing once |
| PyStr.Upper | models.py:179 | same length, no ASCII small letter left, every other character kept, and lower-casing the result equals lower-casing the input |
| ParserGate.CacheGet | parser_gate.py:26-44 | a threshold hits exactly when it has an entry at most `ttl` seconds old, and the hit is that entry's data |
| ParserGate.IsExpired | parser_gate.py:26-28 | an entry is expired exactly when it is strictly more than `ttl` seconds old at the clock reading |
| ParserGate.CacheSet | parser_gate.py:46-48 | the write adds the threshold and leaves every other threshold's entry alone |
| ParserGate.CacheClear | parser_gate.py:50-52 | after a clear, no threshold hits at any clock reading |
| ParserGate.CacheSetThenGet | parser_gate.py:26-48 | a read after a write sees the written data until it is more than `ttl` old, and the earlier answer for every other threshold |
| ParserGate.CleanApr | parser_gate.py:65-66 | the cleaned text holds no `%`, no NBSP, no space and no `,`, and is no longer than the input |
| ParserGate.CleanAprAppend | parser_gate.py:65-66 | cleaning distributes over concatenation |
| ParserGate.CleanAprIsPerCharacter | parser_gate.py:65-66 | the four chained replacements equal one per-character rewrite: `%`, NBSP and space vanish, `,` becomes `.` |
| ParserGate.ParseAprPercent | parser_gate.py:59-71 | absent, null, list and object values give no APR; bool, int and float give their numeric value; a string gives the parse of its cleaned form |
| ParserGate.SortAprPercent | parser_gate.py:74-76 | the APR of a record is the parse of its `sort_apr` field, none when the field is absent |
| ParserGate.FirstList | parser_gate.py:139-145 | no result exactly when no candidate key holds a list; otherwise the items of a key that holds one |
| ParserGate.FirstListStep | parser_gate.py:139-145 | the probe takes the first candidate key holding a list, before looking at later keys |
| ParserGate.ExtractProjects | parser_gate.py:138-146 | the first list among `data`, `list`, `result`, `rows`; otherwise, when `data` is an object, the first among its `list`, `rows`, `data`; otherwise no records |
| ParserGate.SaleStatusValues | parser_gate.py:153-157 | a value is collected exactly when some entry is an object with a `sale_status` key holding it; never more values than entries |
| ParserGate.CollectSaleStatusesMembers | parser_gate.py:153-157 | the walk over a list collects a value exactly when some entry is an object whose `sale_status` holds it |
| ParserGate.CollectSaleStatusesAppend | parser_gate.py:155-157 | the walk over two consecutive lists is the walk over the first followed by the walk over the second |
| ParserGate.SaleStatusValuesAppend | parser_gate.py:155-157 | collection distributes over concatenation, so the values keep list order |
| ParserGate.SaleStatusValuesSingle | parser_gate.py:156-157 | one entry contributes its `sale_status` exactly when it is an object with that key |
| ParserGate.StatusesOf | parser_gate.py:153-157 | a field that is not a list contributes no statuses; a list contributes the `sale_status` values of its qualifying entries, in order |
| ParserGate.ExtractSaleStatuses | parser_gate.py:149-166 | for each of `fixed_list` and `fixable_list`: no statuses unless the field is a list, and then the `sale_status` values of its object entries that have that key, in list order |
| ParserGate.FindMatch | parser_gate.py:175-178 | the scan finds the first record whose asset matches; if there is none, every record is a non-matching object; if it raises, a non-object record comes before any match |
| ParserGate.SelectToken | parser_gate.py:174-179 | the first matching record is chosen; with no match the first record is; the choice is one of the records; it raises exactly when a non-object comes before any match |
| ParserGate.FetchTokenInfo | parser_gate.py:169-179 | no records gives no token; otherwise the selection under the stripped, lower-cased key; a payload that is not an object raises |
| ParserGate.FilterAbove | parser_gate.py:186-189 | a record is kept exactly when it is in the page and its parsed APR is present and strictly above the threshold |
| ParserGate.FilterAboveAppend | parser_gate.py:186-189 | the filter distributes over concatenation, so kept records stay in page order |
| ParserGate.ProcessPage | parser_gate.py:182-190 | the page succeeds exactly when its payload and its records are objects; it then yields the filtered records, each with an APR strictly above the threshold |
| ParserGate.MergePages | parser_gate.py:224-232 | every merged record passes the threshold test |
| ParserGate.MergePagesAppend | parser_gate.py:226-228 | merging distributes over concatenation of the page outcomes |
| ParserGate.FailedPageContributesNothing | parser_gate.py:231-232 | a page that raised changes nothing in the merge and does not stop it |
| ParserGate.MergePagesMembership | parser_gate.py:224-232 | a record is in the merge exactly when some page contributed it |
| ParserGate.MergePagesOrderIrrelevant | parser_gate.py:218-232 | pages completing in any order give the same records with the same multiplicities |
| ParserGate.FetchProjectsWithAprGt | parser_gate.py:193-237 | it skips the scan exactly when not forced and a non-empty entry at most 300 s old exists, and then returns that entry; otherwise it returns the merge and stores it under the threshold stamped with the clock reading of the scan, so it is served until 300 s later and then expires; other thresholds are left alone |
| Models.Make | models.py:28-34 | the coin is the lower-cased input coin, whatever its case was; a missing timestamp becomes the current clock |
| Models.MakeIgnoresCase | models.py:33-34 | upper-casing the coin before construction changes nothing |
| Models.FromApiResponse | models.py:37-65 | the status holds the lower-cased asset, the record's fixed-list sale statuses and its parsed APR, stamped now |
| Models.IsAvailable | models.py:104-111 | available exactly when some product status equals 1 |
| Models.IsSoldOut | models.py:113-120 | sold out exactly when there are products and every status equals 2 |
| Models.IsPartiallyAvailable | models.py:122-131 | partial exactly when some status equals 1 and some equals 2 |
| Models.ClassificationConsistent | models.py:104-131 | never both sold out and available; partial means available and not sold out |
| Models.StatusEmoji | models.py:133-147 | yellow exactly when partial, green when available with nothing sold out, red when sold out, white for an empty or unrecognised list |
| Models.StatusTextOf | models.py:149-165 | the empty list is described first, then partial, available and sold out; any other list falls into the phrase that quotes it |
| Models.GlyphMatchesText | models.py:133-165 | each glyph goes with its phrase; white covers both the empty and the unknown phrase |
| Models.ClassificationIgnoresOrder | models.py:111-131 | reordering the fixed list changes neither glyph nor phrase, except for the list quoted by the unknown phrase |
| Models.FormatForUser | models.py:167-179 | the APR suffix appears exactly when the APR is present and non-zero, as the fraction times 100; the coin is upper-cased; glyph and phrase are the classification's |
| Models.HashOf | models.py:192-194 | `hash` fails with `TypeError` exactly when a fixed-list entry is a list or a dict; otherwise the key carries the coin and one entry per product |
| Models.Equal | models.py:181-190 | two statuses are equal exactly when coin and fixed list are equal, numbers compared as Python compares them |
| Models.EqualIffSameHash | models.py:181-194 | between hashable statuses, two statuses are equal exactly when their hash keys are equal, so equal statuses hash equally |
| Models.EqualIgnoresAprAndTime | models.py:181-190 | equality ignores the APR and the timestamp |
| Models.EqualIsEquivalence | models.py:181-190 | equality is reflexive, symmetric and transitive |
| Models.ToString | models.py:67-78 | the stored form is a serialized status that keeps the fixed list and the APR |
| Models.FromString | models.py:81-102 | decoding succeeds exactly on a serialized status, and then gives the lower-cased coin, the stored list and APR, and the stored or current timestamp |
| Models.StoredRoundTrip | models.py:67-102 | decoding what was stored keeps list, APR and timestamp, and gives the very status back under its own coin |
| Models.MissingTimestampIsReplaced | models.py:93-101 | a stored status without a timestamp decodes, stamped with the current clock |
| Utils.NewRateLimiter | utils.py:21-27 | a new limiter has no previous request, stamped 0 |
| Utils.SleepFor | utils.py:36-40 | the sleep is non-negative, positive exactly when the last request is too recent, and then exactly long enough to reach the minimum gap |
| Utils.WaitIfNeeded | utils.py:30-41 | the new request stamp is at least the minimum interval after the previous one |
| Utils.Stamps | utils.py:35-41 | successive stamps of one caller are at least the minimum interval apart |
| Utils.StampsSpan | utils.py:35-41 | `n` calls span at least `n - 1` minimum intervals |
| Utils.Backoff | utils.py:94 | the delay is the smaller of the cap and the base delay doubled `attempt - 1` times |
| Utils.RetryWithBackoff | utils.py:44-117 | at most `max_attempts` calls; all but the last failed retryably and were each followed by their pause; the last value is returned or its exception raised; the policy stops early only on a value or a non-retryable error |
| Utils.RetryContract | utils.py:44-117 | the retry policy stated declaratively: call count, the pause after each retryable failure, the returned value or raised exception, and when the policy may stop early |
| Utils.RetryContractDeterminesRun | utils.py:77-117 | the retry contract allows exactly one run for given outcomes |
| Utils.ClientErrorIsNotRetried | utils.py:96-99 | an HTTP status other than 429 and 5xx is raised after one call and no pause |
| Utils.ServerErrorsThenSuccess | utils.py:93-95 | after server errors on the first `k - 1` calls and a value on call `k`, the value comes back after the pauses `min(base * 2^(j-1), max)` |
| Utils.ExhaustedRaisesLast | utils.py:101-117 | when every attempt fails retryably, the last exception is raised after `max_attempts - 1` pauses, with none after the last call |
| Database.AddSubscriber | database.py:90-105 | the answer is true exactly for a new chat; the chat is present afterwards and active if new; nothing else changes |
| Database.RemoveSubscriber | database.py:107-122 | the answer is whether the chat existed; the chat and all its watches are gone; everything else stays |
| Database.AllSubscribers | database.py:124-128 | the answer lists exactly the stored chats |
| Database.IsPaused | database.py:130-138 | an unknown chat is not paused; a known chat reports its flag |
| Database.SetPaused | database.py:140-146 | only the chat's flag can change; an unknown chat changes nothing |
| Database.SetPausedThenIsPaused | database.py:130-146 | the flag reads back what was set, for a known chat only, and other chats read as before |
| Database.AddWatch | database.py:152-168 | an upsert: the pair holds the new status, and the keys grow by that pair at most |
| Database.AddWatchTwiceKeepsLast | database.py:53-61 | two writes to one pair leave one row, holding the second status |
| Database.UpdateWatchStatus | database.py:170-177 | an existing row gets the new status; a missing row is never inserted |
| Database.RemoveWatch | database.py:179-191 | the answer is whether the row existed; afterwards it is absent and the other rows stay |
| Database.WatchesForChat | database.py:193-205 | exactly the chat's coins, each with its stored status |
| Database.WatchingChats | database.py:207-221 | exactly the chats that have a stored watch |
| Database.RemoveAfterAddWatch | database.py:152-191 | deleting a freshly inserted row restores the store, and reports the row existed |
| WatchRegistry.Load | telegram_bot.py:89-108 | the state keeps the given store; memory holds exactly its subscribers and, for each watching chat, exactly that chat's stored watches, so it mirrors the store; failure counters and alerts start cleared |
| WatchRegistry.AddSubscriber | telegram_bot.py:110-116 | the chat is subscribed in memory and the store changes exactly as the store's insert-or-ignore does, so no other chat's pause flag moves; it has a watch map; no existing watch is lost; counters and alert flags are untouched; the mirror is kept |
| WatchRegistry.SetWatch | telegram_bot.py:118-122 | the pair holds the status, every other pair is unchanged, the store gets exactly the upsert, counters and alert flags are untouched, and the mirror is kept |
| WatchRegistry.UserCoins | telegram_bot.py:132-135 | exactly the coins the chat watches, in memory and, under the mirror, in the store |
| WatchRegistry.RemoveWatch | telegram_bot.py:137-143 | only that pair is removed, in memory and by the store's delete; subscribers, pause flags, counters and alert flags are untouched; the answer is whether the store row existed; the mirror is kept |
| WatchRegistry.RemoveEachDeletesListed | telegram_bot.py:145-149 | removing a chat's coins one by one, in any order, deletes exactly those rows |
| WatchRegistry.ClearWatches | telegram_bot.py:145-150 | the chat's map is empty afterwards, the store gets one delete per listed coin, no other chat is touched, counters and alert flags are untouched, and the mirror is kept |
| WatchRegistry.UpdateStatus | telegram_bot.py:182-189 | it writes exactly when the current value, possibly absent, differs from the new one; afterwards the value is the new one; the store gets the matching UPDATE when it writes, and nothing else changes |
| WatchRegistry.UpdateStatusTwice | telegram_bot.py:182-189 | a second identical update reports no change and changes nothing |
| WatchRegistry.UpdateStatusPreservesMirrors | telegram_bot.py:182-189 | an update of a watch memory holds keeps memory and store in step |
| WatchRegistry.UpdateStatusOnMissingWatchDiverges | telegram_bot.py:184-187 | an update of a watch missing from memory puts memory and store out of step |
| WatchRegistry.IncrementGlobalFailures | telegram_bot.py:152-155 | the count goes up by one and the new count is returned |
| WatchRegistry.ResetGlobalFailures | telegram_bot.py:157-160 | no failures are counted and no alert is outstanding afterwards |
| WatchRegistry.IncrementCoinFailure | telegram_bot.py:162-165 | the coin's count, from 0 when absent, goes up by one; other coins are unchanged |
| WatchRegistry.ResetCoinFailure | telegram_bot.py:167-172 | the coin leaves both the failure map and the alerted set, and nothing else changes |
| WatchRegistry.MarkCoinAlerted | telegram_bot.py:174-176 | the coin joins the alerted set |
| WatchRegistry.IsCoinAlerted | telegram_bot.py:178-180 | a coin is alerted exactly when it is in the alerted set |
| WatchRegistry.ResetAfterIncrementForgetsCoin | telegram_bot.py:162-180 | counting, marking and then resetting a coin leaves the counters as they were |
| Monitor.Fail | telegram_bot.py:227-242 | a failure raises one alert to all subscribers only while no alert is outstanding, and then marks one outstanding |
| Monitor.PriorAsWritten | telegram_bot.py:251-256 | the prior status is absent for a missing or empty value, and decoding raises exactly on other text |
| Monitor.Succeeded | telegram_bot.py:227-242 | a fetch counts as a success exactly when it returned a record that is not empty |
| Monitor.Prior | telegram_bot.py:251-256 | the corrected reading: a prior exists exactly for a stored status, and agrees with the source's wherever that one decodes |
| Monitor.Record | telegram_bot.py:244-271 | the watch holds the new stored form; a change notice goes out exactly when the update wrote and the fixed list differs from the prior, or there was none |
| Monitor.Step | telegram_bot.py:219-271 | paused chats and failed fetches keep their stored status; the alert flag is set on a failure; success is noted; only the checked watch can change |
| Monitor.StepNotices | telegram_bot.py:221-271 | a paused chat's check changes nothing; earlier messages are kept; a failed fetch sends no change notice; a successful one sends at most the change notice of its own fetched status |
| Monitor.StepAsWritten | telegram_bot.py:244-260 | the source's step raises exactly when a successful fetch meets an undecodable stored prior, and otherwise equals the corrected step |
| Monitor.Finish | telegram_bot.py:273-280 | after a success with an alert outstanding: one recovery alert to all subscribers, then every counter and flag is cleared; otherwise nothing happens |
| Monitor.CheckOnce | telegram_bot.py:205-280 | a pass leaves the subscribers and pause flags alone |
| Monitor.CheckOnceAsWritten | telegram_bot.py:205-280 | the pass as the source runs it, which raises on a stored placeholder; wherever it completes it equals the corrected pass |
| Monitor.RunFrame | telegram_bot.py:219-242 | over a snapshot, the alert flag ends set exactly when one was set or some check failed; at most one failure alert; success is noted exactly when some check succeeded |
| Monitor.RunLeavesOthers | telegram_bot.py:220-242 | a watch no successful check refreshes keeps its status, in memory and in the store |
| Monitor.RunPreservesMirrors | telegram_bot.py:252-260 | a run over watches memory holds keeps memory and store in step |
| Monitor.CheckOnceFailureAlerts | telegram_bot.py:217-242 | a pass sends at most one failure alert, none while one is outstanding, and one exactly when none was outstanding and some check failed |
| Monitor.CheckOnceRecovery | telegram_bot.py:273-280 | exactly one recovery alert, as the last message, exactly when some check succeeded and an alert was outstanding; then all counters are cleared |
| Monitor.CheckOnceLeavesUnrefreshed | telegram_bot.py:220-242 | paused chats, failed fetches and unlisted watches keep their stored status |
| Monitor.CheckOncePreservesMirrors | telegram_bot.py:259-260 | a pass over the registry's own watches keeps memory and store in step |
| Monitor.FailingPassesAlertOnce | telegram_bot.py:231-241 | after a pass in which only failures were seen, the next pass sends no failure alert |
| Monitor.FirstCheckAnnounces | telegram_bot.py:251-271 | the first successful check of a watch with no prior is announced |
| Monitor.SameRecordTwiceIsSilent | telegram_bot.py:249-260 | the same record seen twice in a row: the second time writes nothing and sends nothing |
| Monitor.NewTimestampRewritesSilently | telegram_bot.py:249-260 | the same fixed list at a new clock reading is written again but not announced |
| Monitor.PlaceholderAbortsPass | telegram_bot.py:252-254 | a successful fetch for a watch stored as `"no_data"` raises out of the source's pass |
| Monitor.AsWrittenAgreesWithoutPlaceholders | telegram_bot.py:251-256 | when no placeholder text is stored, the source's run completes and equals the corrected run |
| Monitor.RunAsWrittenCompletesAsCorrected | telegram_bot.py:251-256 | wherever the source's run completes, it ends where the corrected run does |
| Monitor.CheckOnceExtendsAsWritten | telegram_bot.py:205-280 | the corrected pass equals the source's wherever that one completes, and always completes without placeholders |
| TickerLookup.ValidateTicker | telegram_bot.py:685-699 | rejected as too long exactly over 10 characters; then as malformed exactly with a space or a non-alphanumeric character; accepted exactly when no character is a space, non-alphanumeric or Cyrillic, as the lower-cased text |
| TickerLookup.CyrillicIsRejectedLast | telegram_bot.py:692-699 | a short Cyrillic ticker passes the first two checks and is rejected by the Cyrillic one |
| TickerLookup.HandleTicker | telegram_bot.py:685-734 | a rejected ticker changes nothing; an accepted one subscribes the chat and stores the fetched status, or `"no_data"` when the lookup raised or found nothing; no other watch changes; the store's subscribers change only as its insert-or-ignore does and its watches only by that upsert; counters and alert flags are untouched |
| TickerLookup.FailedLookupBreaksNextPass | telegram_bot.py:702-719 | after a failed lookup, the next successful check of that coin raises out of the source's pass, while the corrected pass announces the status |
| Config.ErrorsOf | config.py:107-112 | the errors are exactly a missing token and a base URL not starting with `https://` |
| Config.WarningsOf | config.py:114-137 | the warnings are exactly more than 3 workers, a check interval under 30 s, a request interval under 1 s, and more than 30 pages |
| Config.Validate | config.py:102-148 | validation raises exactly on an error, listing the errors; otherwise it passes with the warnings |
| Config.DefaultsAreQuiet | config.py:22-52 | with a token set, the shipped defaults give neither an error nor a warning |
| Config.WarningsNeverRaise | config.py:139-148 | changing only the warned-about fields never changes whether validation raises |
| Config.NonBlankSource | config.py:152 | every string the `if s.strip()` filter keeps is a non-empty entry of its input |
| Config.NonBlankKeeps | config.py:152 | every non-empty entry passes the filter |
| Config.NonBlankAppend | config.py:152 | the filter keeps the order of the entries it passes |
| Config.StrippedIds | config.py:152 | every kept id is non-empty and has no surrounding whitespace |
| Config.StrippedIdSource | config.py:152 | every id is the stripped form of some piece |
| Config.StrippedIdsAppend | config.py:152 | ids of consecutive pieces keep their order |
| Config.StrippedIdsKeepsNonBlank | config.py:152 | every piece that is not blank contributes its stripped form |
| Config.AdminChatIds | config.py:150-152 | every id is trimmed and non-empty, and made of characters of the setting other than the comma |
| Config.AdminChatIdsKeepsNonBlank | config.py:150-152 | every comma piece of the setting that is not blank yields its stripped form as an id |
| Config.AdminChatIdsOfBlankOrSingle | config.py:150-152 | a setting of only blanks and commas gives no id; a setting without a comma gives at most one |
| Config.CleanListRoundTrip | config.py:150-152 | for a clean comma list the ids are its pieces in order, and joining them with commas gives the setting back |

## Left out

- Telegram I/O is not modelled: sending, polling and commands. Messages are modelled as a list of notices. The wording of alerts and replies is not modelled, including the exception text quoted in an error alert.
- `send_message` catches and logs every failure (telegram_bot.py:41-42). A failed send is modelled as a sent notice, and the log line is not modelled.
- Commands other than a plain-text ticker are not modelled. Neither are admin texts that start with `/`.
- The HTTP requests themselves are not modelled: URLs, headers, user agents and the random "human-like" pause. Their outcomes are inputs.
- Concurrency is not modelled.
  - The thread pool of a scan is modelled as a merge in page order. `ParserGate.MergePagesOrderIrrelevant` covers completion in any other order.
  - The locks and the unlocked writes to `global_alerted` are modelled as sequential updates.
- Float parsing, `str()` of non-strings and the `:.2f` formatting are not modelled. They are parameters, and an APR is a `real`.
- `PyStr.Lower`, `PyStr.Upper`: only ASCII letters change case. Python's full Unicode case mapping is not modelled. Python lower-cases Cyrillic capitals (`'Б'` becomes `'б'`) and the model keeps them; both stay in the Cyrillic block, so the Cyrillic test reaches the same verdict. An accepted non-ASCII letter is stored unchanged by the model, where Python stores its lower case (`'É'` becomes `'é'`); such a ticker names a different coin in the model than in the source.
- `TickerLookup.IsAlnum`: `str.isalnum` is a parameter per character, because its Unicode tables are not modelled.
- `PyStr.Split`: only the one-character separator `get_admin_chat_ids` uses is modelled.
- `Models.SameList`, `Models.Equal`, `Monitor.Record`: Python's `==` is treated numerically for scalar list entries only. A list nested inside a list entry is compared structurally. Equality of statuses and change detection rely on this comparison, so they have the same gap.
- `Models.Stored`: a stored JSON object that lacks `fixed_list` or `sort_apr` is not represented. Neither is a document that is not an object, nor a non-ISO timestamp. Every stored text is either what `to_string` writes or text `json.loads` rejects.
- SQLite specifics are not modelled: connections, migration, `last_check`, `created_at`, the `api_logs` table, statistics and vacuum.
- `WatchRegistry.UserCoins`: returns the set of coins. The source sorts them for display.
- `WatchRegistry.ClearWatches`: the iteration order of the chat's map is a parameter.
- `WatchRegistry.IncrementGlobalFailures`, `IncrementCoinFailure`, `MarkCoinAlerted`: modelled as operations. `_check_once` never calls them, so no per-coin escalation is modelled.
- The `fixable_list`, `list_type` and `get_active_list` behaviour some test scripts expect is not modelled. `TokenStatus` does not implement it.
- The monitor loop's sleep between passes is not modelled, and neither are process start-up and shutdown.

## Findings

| source | as written | input that shows it | evidently intended | confidence | as-written member | corrected member |
|---|---|---|---|---|---|---|
| telegram_bot.py:702-719 | A failed or empty lookup stores the text `"no_data"` as the watch's status. The next pass decodes every non-empty stored status with `from_string` (telegram_bot.py:252-254). That call sits outside any `try`, so `json.loads` raises out of `_check_once` and ends the monitor loop (telegram_bot.py:199-202). | Subscribe to a ticker while the lookup fails. Then let a later pass fetch that coin successfully. | The placeholder counts as "no prior status". The first real status is stored and announced, and the pass goes on. The reply at telegram_bot.py:711 promises the bot keeps trying. | high; not executed | Monitor.CheckOnceAsWritten, Monitor.PlaceholderAbortsPass, TickerLookup.FailedLookupBreaksNextPass | Monitor.CheckOnce, Monitor.Prior, Monitor.CheckOnceExtendsAsWritten |

=== FILE: config.dfy ===
/**
 * The `Config` helpers: the comma-separated admin chat list and the start-up
 * validation, which raises on errors and only logs warnings.
 */
module Config {
  import PyStr

  /** The settings `validate` and `get_admin_chat_ids` read. */
  datatype Settings = Settings(
    botToken: string,
    adminChatIds: string,
    baseUrl: string,
    maxWorkers: int,
    maxPagesToFetch: int,
    minRequestInterval: real,
    checkIntervalSec: real)

  /** The scheme `validate` insists on. */
  const SecureScheme: string := "https://"

  const DefaultBaseUrl: string := SecureScheme + "www.gate.com/apiw/v2/uni-loan/earn/market/list"
  const DefaultMaxWorkers: int := 2
  const DefaultMaxPagesToFetch: int := 20
  const DefaultMinRequestInterval: real := 2.0
  const DefaultCheckIntervalSec: real := 60.0

  /** The class defaults, with the two values read from the environment. */
  function Defaults(botToken: string, adminChatIds: string): Settings {
    Settings(botToken, adminChatIds, DefaultBaseUrl, DefaultMaxWorkers, DefaultMaxPagesToFetch,
             DefaultMinRequestInterval, DefaultCheckIntervalSec)
  }

  /** `s.startswith(prefix)`. */
  predicate StartsWith(s: string, prefix: string) {
    |prefix| <= |s| && s[..|prefix|] == prefix
  }

  datatype ConfigError = MissingBotToken | InsecureBaseUrl(url: string)

  datatype ConfigWarning =
    | TooManyWorkers(workers: int)
    | CheckIntervalTooShort(seconds: real)
    | RequestIntervalTooShort(seconds: real)
    | TooManyPages(pages: int)

  /** `validate`: a `ValueError` listing the errors, or a return after logging the warnings. */
  datatype Validation = Raised(errors: seq<ConfigError>) | Passed(warnings: seq<ConfigWarning>)

  function ErrorsOf(c: Settings): (e: seq<ConfigError>)
    ensures MissingBotToken in e <==> c.botToken == ""
    ensures InsecureBaseUrl(c.baseUrl) in e <==> !StartsWith(c.baseUrl, SecureScheme)
    ensures forall x :: x in e ==> x == MissingBotToken || x == InsecureBaseUrl(c.baseUrl)
    ensures |e| <= 2
  {
    (if c.botToken == "" then [MissingBotToken] else [])
    + (if !StartsWith(c.baseUrl, SecureScheme) then [InsecureBaseUrl(c.baseUrl)] else [])
  }

  function WarningsOf(c: Settings): (w: seq<ConfigWarning>)
    ensures TooManyWorkers(c.maxWorkers) in w <==> c.maxWorkers > 3
    ensures CheckIntervalTooShort(c.checkIntervalSec) in w <==> c.checkIntervalSec < 30.0
    ensures RequestIntervalTooShort(c.minRequestInterval) in w <==> c.minRequestInterval < 1.0
    ensures TooManyPages(c.maxPagesToFetch) in w <==> c.maxPagesToFetch > 30
    ensures forall x :: x in w ==> x in [TooManyWorkers(c.maxWorkers), CheckIntervalTooShort(c.checkIntervalSec),
                                         RequestIntervalTooShort(c.minRequestInterval), TooManyPages(c.maxPagesToFetch)]
  {
    (if c.maxWorkers > 3 then [TooManyWorkers(c.maxWorkers)] else [])
    + (if c.checkIntervalSec < 30.0 then [CheckIntervalTooShort(c.checkIntervalSec)] else [])
    + (if c.minRequestInterval < 1.0 then [RequestIntervalTooShort(c.minRequestInterval)] else [])
    + (if c.maxPagesToFetch > 30 then [TooManyPages(c.maxPagesToFetch)] else [])
  }

  /**
   * `validate`: raises exactly when the bot token is empty or the base URL
   * is not `https://`; warnings alone never raise.
   */
  function Validate(c: Settings): (v: Validation)
    ensures v.Raised? <==> c.botToken == "" || !StartsWith(c.baseUrl, SecureScheme)
    ensures v.Raised? ==> v.errors == ErrorsOf(c) && v.errors != []
    ensures v.Passed? ==> v.warnings == WarningsOf(c)
  {
    var errors := ErrorsOf(c);
    if errors != [] then Raised(errors) else Passed(WarningsOf(c))
  }

  /** With a token set, the shipped defaults validate without a single warning. */
  lemma DefaultsAreQuiet(botToken: string, adminChatIds: string)
    requires botToken != ""
    ensures Validate(Defaults(botToken, adminChatIds)) == Passed([])
  {
    assert DefaultBaseUrl[..|SecureScheme|] == SecureScheme;
  }

  /** Warnings never turn into an error: only the token and the URL decide. */
  lemma WarningsNeverRaise(c: Settings, workers: int, pages: int, minInterval: real, interval: real)
    ensures Validate(c).Raised? == Validate(c.(maxWorkers := workers, maxPagesToFetch := pages,
                                                minRequestInterval := minInterval, checkIntervalSec := interval)).Raised?
  {
  }

  // ---------------------------------------------------------------------
  // Admin chat ids

  /** An id as `get_admin_chat_ids` keeps it: non-empty, not starting or ending with whitespace. */
  predicate IsTrimmedId(s: string) {
    |s| > 0 && !PyStr.IsSpace(s[0]) && !PyStr.IsSpace(s[|s| - 1])
  }

  /** `f` applied to every string, in order. */
  function MapStrings(f: string -> string, ts: seq<string>): (r: seq<string>)
    ensures |r| == |ts|
  {
    seq(|ts|, k requires 0 <= k < |ts| => f(ts[k]))
  }

  /** Mapping consecutive lists maps each of them. */
  lemma MapStringsAppend(f: string -> string, a: seq<string>, b: seq<string>)
    ensures MapStrings(f, a + b) == MapStrings(f, a) + MapStrings(f, b)
  {
    var m := MapStrings(f, a + b);
    forall k | 0 <= k < |a| ensures m[k] == f(a[k]) {
      assert (a + b)[k] == a[k];
    }
    forall k | |a| <= k < |a + b| ensures m[k] == f(b[k - |a|]) {
      assert (a + b)[k] == b[k - |a|];
    }
  }

  /** Every piece passed through `strip()`, in order. */
  function StripAll(pieces: seq<string>): (r: seq<string>)
    ensures |r| == |pieces|
    ensures forall k :: 0 <= k < |r| ==> r[k] == PyStr.Strip(pieces[k])
  {
    MapStrings(PyStr.Strip, pieces)
  }

  /** The strings that are not empty, in order. */
  function NonBlank(ts: seq<string>): (r: seq<string>)
    ensures |r| <= |ts|
  {
    if ts == [] then [] else Keep(ts[0]) + NonBlank(ts[1..])
  }

  /** A string is kept unless it is empty. */
  function Keep(t: string): (r: seq<string>)
    ensures |r| <= 1 && (r != [] <==> t != []) && (r != [] ==> r[0] == t)
  {
    if t != [] then [t] else []
  }

  /** Each kept string is a non-empty entry of the input. */
  lemma {:induction false} NonBlankSource(ts: seq<string>, i: nat) returns (j: nat)
    requires i < |NonBlank(ts)|
    ensures j < |ts| && NonBlank(ts)[i] == ts[j] && ts[j] != []
  {
    var head := Keep(ts[0]);
    var rest := NonBlank(ts[1..]);
    assert NonBlank(ts) == head + rest;
    if i < |head| {
      j := 0;
    } else {
      var k := NonBlankSource(ts[1..], i - |head|);
      j := k + 1;
    }
  }

  /** Every non-empty entry of the input is kept. */
  lemma {:induction false} NonBlankKeeps(ts: seq<string>, i: nat)
    requires i < |ts| && ts[i] != []
    ensures ts[i] in NonBlank(ts)
  {
    var head := Keep(ts[0]);
    var rest := NonBlank(ts[1..]);
    assert NonBlank(ts) == head + rest;
    if i == 0 {
      assert head == [ts[0]];
    } else {
      assert ts[1..][i - 1] == ts[i];
      NonBlankKeeps(ts[1..], i - 1);
    }
  }

  /** Filtering consecutive lists gives the filtered first list followed by the filtered second. */
  lemma {:induction false} NonBlankAppend(a: seq<string>, b: seq<string>)
    ensures NonBlank(a + b) == NonBlank(a) + NonBlank(b)
  {
    if a != [] {
      assert (a + b)[1..] == a[1..] + b;
      NonBlankAppend(a[1..], b);
    } else {
      assert a + b == b;
    }
  }

  /** The stripped pieces that are not blank, in order. */
  function StrippedIds(pieces: seq<string>): (r: seq<string>)
    ensures |r| <= |pieces|
    ensures forall i :: 0 <= i < |r| ==> IsTrimmedId(r[i])
  {
    var ts := StripAll(pieces);
    var r := NonBlank(ts);
    forall i | 0 <= i < |r| ensures IsTrimmedId(r[i]) {
      var j := NonBlankSource(ts, i);
      StrippedPieceIsTrimmed(pieces[j]);
    }
    r
  }

  /** A piece that is not blank strips to a trimmed id. */
  lemma StrippedPieceIsTrimmed(s: string)
    requires PyStr.Strip(s) != []
    ensures IsTrimmedId(PyStr.Strip(s))
  {
  }

  /** Each id is the stripped form of some piece. */
  lemma StrippedIdSource(pieces: seq<string>, i: nat) returns (j: nat)
    requires i < |StrippedIds(pieces)|
    ensures j < |pieces| && StrippedIds(pieces)[i] == PyStr.Strip(pieces[j])
  {
    j := NonBlankSource(StripAll(pieces), i);
  }

  /** The ids of consecutive pieces are the ids of the first pieces followed by those of the rest. */
  lemma StrippedIdsAppend(a: seq<string>, b: seq<string>)
    ensures StrippedIds(a + b) == StrippedIds(a) + StrippedIds(b)
  {
    MapStringsAppend(PyStr.Strip, a, b);
    NonBlankAppend(StripAll(a), StripAll(b));
  }

  /** Every piece that is not blank contributes its stripped form. */
  lemma StrippedIdsKeepsNonBlank(pieces: seq<string>, i: nat)
    requires i < |pieces| && PyStr.Strip(pieces[i]) != []
    ensures PyStr.Strip(pieces[i]) in StrippedIds(pieces)
  {
    NonBlankKeeps(StripAll(pieces), i);
  }

  /** `get_admin_chat_ids`: the comma-separated pieces, stripped, blanks dropped. */
  function AdminChatIds(c: Settings): (r: seq<string>)
    ensures forall i :: 0 <= i < |r| ==> IsTrimmedId(r[i])
    ensures forall i :: 0 <= i < |r| ==> forall ch :: ch in r[i] ==> ch in c.adminChatIds && ch != ','
  {
    var pieces := PyStr.Split(c.adminChatIds, ',');
    var r := StrippedIds(pieces);
    forall i, ch | 0 <= i < |r| && ch in r[i] ensures ch in c.adminChatIds && ch != ',' {
      var j := StrippedIdSource(pieces, i);
      JoinContainsPieces(pieces, ',', j);
    }
    r
  }

  /** Every comma piece of the setting that is not blank yields its stripped form as an id. */
  lemma AdminChatIdsKeepsNonBlank(c: Settings, i: nat)
    requires i < |PyStr.Split(c.adminChatIds, ',')|
    requires PyStr.Strip(PyStr.Split(c.adminChatIds, ',')[i]) != []
    ensures PyStr.Strip(PyStr.Split(c.adminChatIds, ',')[i]) in AdminChatIds(c)
  {
    StrippedIdsKeepsNonBlank(PyStr.Split(c.adminChatIds, ','), i);
  }

  /** Every character of a piece occurs in the joined string. */
  lemma {:induction false} JoinContainsPieces(pieces: seq<string>, sep: char, j: nat)
    requires 1 <= |pieces| && j < |pieces|
    ensures forall ch :: ch in pieces[j] ==> ch in PyStr.Join(pieces, sep)
  {
    if |pieces| > 1 {
      if j > 0 {
        JoinContainsPieces(pieces[1..], sep, j - 1);
        assert pieces[1..][j - 1] == pieces[j];
      }
    }
  }

  /** Blank input, commas included, yields no ids; input without a comma yields at most one. */
  lemma AdminChatIdsOfBlankOrSingle(c: Settings)
    ensures (forall k :: 0 <= k < |c.adminChatIds| ==> PyStr.IsSpace(c.adminChatIds[k]) || c.adminChatIds[k] == ',')
      ==> AdminChatIds(c) == []
    ensures ',' !in c.adminChatIds ==> |AdminChatIds(c)| <= 1
  {
    NonBlankWitness(c);
  }

  /** An id needs a character of the setting that is neither whitespace nor a comma. */
  lemma NonBlankWitness(c: Settings)
    ensures AdminChatIds(c) != [] ==>
      exists k :: 0 <= k < |c.adminChatIds| && !PyStr.IsSpace(c.adminChatIds[k]) && c.adminChatIds[k] != ','
  {
    var r := AdminChatIds(c);
    if r != [] {
      var ch := r[0][0];
      assert ch in r[0];
      var k :| 0 <= k < |c.adminChatIds| && c.adminChatIds[k] == ch;
    }
  }

  /**
   * For a clean list (no blank piece, no whitespace) the ids are exactly the
   * pieces, so joining them with commas gives the setting back.
   */
  lemma {:induction false} CleanListRoundTrip(c: Settings)
    requires forall k :: 0 <= k < |c.adminChatIds| ==> !PyStr.IsSpace(c.adminChatIds[k])
    requires forall p :: p in PyStr.Split(c.adminChatIds, ',') ==> p != []
    ensures AdminChatIds(c) == PyStr.Split(c.adminChatIds, ',')
    ensures PyStr.Join(AdminChatIds(c), ',') == c.adminChatIds
  {
    var pieces := PyStr.Split(c.adminChatIds, ',');
    forall j | 0 <= j < |pieces| ensures pieces[j] != [] && forall ch :: ch in pieces[j] ==> !PyStr.IsSpace(ch) {
      assert pieces[j] in pieces;
      JoinContainsPieces(pieces, ',', j);
    }
    CleanPiecesAreIds(pieces);
  }

  lemma CleanPiecesAreIds(pieces: seq<string>)
    requires forall j :: 0 <= j < |pieces| ==> pieces[j] != [] && forall ch :: ch in pieces[j] ==> !PyStr.IsSpace(ch)
    ensures StrippedIds(pieces) == pieces
  {
    forall j | 0 <= j < |pieces| ensures StripAll(pieces)[j] == pieces[j] {
      StripKeepsClean(pieces[j]);
    }
    assert StripAll(pieces) == pieces;
    NonBlankKeepsAll(pieces);
  }

  /** A list without empty strings passes the filter unchanged. */
  lemma {:induction false} NonBlankKeepsAll(ts: seq<string>)
    requires forall j :: 0 <= j < |ts| ==> ts[j] != []
    ensures NonBlank(ts) == ts
  {
    if ts != [] {
      NonBlankKeepsAll(ts[1..]);
      assert [ts[0]] + ts[1..] == ts;
    }
  }

  /** `strip()` leaves a string without whitespace as it is. */
  lemma StripKeepsClean(s: string)
    requires forall ch :: ch in s ==> !PyStr.IsSpace(ch)
    ensures PyStr.Strip(s) == s
  {
    if s != [] {
      assert s[0] in s && s[|s| - 1] in s;
    }
  }
}

=== FILE: database.dfy ===
/**
 * The persistence contract of the SQLite store: the `subscribers` table
 * (a chat id with its paused flag) and the `watches` table, whose rows are
 * unique per `(chat_id, coin)` and hold the stored status text.
 */
module Database {
  import opened Models

  type ChatId = string
  type Coin = string

  /** The `UNIQUE(chat_id, coin)` key of the `watches` table. */
  datatype WatchKey = WatchKey(chat: ChatId, coin: Coin)

  /**
   * The two tables: `subscribers` maps each chat to its `paused` flag;
   * `watches` maps each key to its `current_status`. Being maps, both
   * carry at most one row per key, as the primary and unique keys demand.
   */
  datatype Store = Store(subscribers: map<ChatId, bool>, watches: map<WatchKey, Stored>)

  /** A freshly created database: both tables empty. */
  const Empty: Store := Store(map[], map[])

  /**
   * `add_subscriber`: the INSERT succeeds (and the chat is active) only for
   * a new chat; a duplicate key is the swallowed `IntegrityError`.
   */
  function AddSubscriber(db: Store, chat: ChatId): (r: (Store, bool))
    ensures r.1 <==> chat !in db.subscribers
    ensures chat in r.0.subscribers
    ensures r.1 ==> r.0.subscribers == db.subscribers[chat := false]
    ensures !r.1 ==> r.0 == db
    ensures r.0.watches == db.watches
  {
    if chat in db.subscribers then (db, false)
    else (db.(subscribers := db.subscribers[chat := false]), true)
  }

  /**
   * `remove_subscriber`: every watch of the chat is deleted, then the
   * subscriber row; the answer is whether that row existed.
   */
  function RemoveSubscriber(db: Store, chat: ChatId): (r: (Store, bool))
    ensures r.1 <==> chat in db.subscribers
    ensures chat !in r.0.subscribers
    ensures forall c :: c != chat ==> (c in r.0.subscribers <==> c in db.subscribers)
    ensures forall c :: c != chat && c in db.subscribers ==> r.0.subscribers[c] == db.subscribers[c]
    ensures forall k :: k in r.0.watches <==> k in db.watches && k.chat != chat
    ensures forall k :: k in r.0.watches ==> r.0.watches[k] == db.watches[k]
  {
    var watches := map k | k in db.watches && k.chat != chat :: db.watches[k];
    (Store(db.subscribers - {chat}, watches), chat in db.subscribers)
  }

  /** `get_all_subscribers`: the chat ids of the `subscribers` table. */
  function AllSubscribers(db: Store): (r: set<ChatId>)
    ensures forall c :: c in r <==> c in db.subscribers
  {
    db.subscribers.Keys
  }

  /** `is_paused`: the stored flag; a chat without a row is not paused. */
  function IsPaused(db: Store, chat: ChatId): (r: bool)
    ensures chat !in db.subscribers ==> !r
    ensures chat in db.subscribers ==> r == db.subscribers[chat]
  {
    chat in db.subscribers && db.subscribers[chat]
  }

  /** `set_paused`: an UPDATE, so a chat without a row is left without one. */
  function SetPaused(db: Store, chat: ChatId, paused: bool): (r: Store)
    ensures r.subscribers.Keys == db.subscribers.Keys
    ensures r.watches == db.watches
    ensures forall c :: c in db.subscribers && c != chat ==> r.subscribers[c] == db.subscribers[c]
    ensures chat !in db.subscribers ==> r == db
  {
    if chat in db.subscribers then db.(subscribers := db.subscribers[chat := paused]) else db
  }

  /** The pause flag reads back what `set_paused` wrote, for a known chat only. */
  lemma SetPausedThenIsPaused(db: Store, chat: ChatId, paused: bool, other: ChatId)
    ensures IsPaused(SetPaused(db, chat, paused), chat) == (chat in db.subscribers && paused)
    ensures other != chat ==> IsPaused(SetPaused(db, chat, paused), other) == IsPaused(db, other)
  {
  }

  /** `add_watch`: INSERT … ON CONFLICT(chat_id, coin) DO UPDATE, an upsert. */
  function AddWatch(db: Store, chat: ChatId, coin: Coin, status: Stored): (r: Store)
    ensures r.subscribers == db.subscribers
    ensures WatchKey(chat, coin) in r.watches && r.watches[WatchKey(chat, coin)] == status
    ensures r.watches.Keys == db.watches.Keys + {WatchKey(chat, coin)}
    ensures forall k :: k in db.watches && k != WatchKey(chat, coin) ==> r.watches[k] == db.watches[k]
  {
    db.(watches := db.watches[WatchKey(chat, coin) := status])
  }

  /** Upserting the same key twice keeps only the second status: one row per pair. */
  lemma AddWatchTwiceKeepsLast(db: Store, chat: ChatId, coin: Coin, s1: Stored, s2: Stored)
    ensures AddWatch(AddWatch(db, chat, coin, s1), chat, coin, s2) == AddWatch(db, chat, coin, s2)
  {
  }

  /** `update_watch_status`: an UPDATE of the existing row only; it never inserts one. */
  function UpdateWatchStatus(db: Store, chat: ChatId, coin: Coin, status: Stored): (r: Store)
    ensures r.subscribers == db.subscribers
    ensures r.watches.Keys == db.watches.Keys
    ensures WatchKey(chat, coin) in db.watches ==> r.watches[WatchKey(chat, coin)] == status
    ensures forall k :: k in db.watches && k != WatchKey(chat, coin) ==> r.watches[k] == db.watches[k]
    ensures WatchKey(chat, coin) !in db.watches ==> r == db
  {
    if WatchKey(chat, coin) in db.watches then AddWatch(db, chat, coin, status) else db
  }

  /** `remove_watch`: DELETE of the one row; the answer is whether it existed. */
  function RemoveWatch(db: Store, chat: ChatId, coin: Coin): (r: (Store, bool))
    ensures r.1 <==> WatchKey(chat, coin) in db.watches
    ensures r.0.subscribers == db.subscribers
    ensures r.0.watches.Keys == db.watches.Keys - {WatchKey(chat, coin)}
    ensures forall k :: k in r.0.watches ==> r.0.watches[k] == db.watches[k]
  {
    (db.(watches := db.watches - {WatchKey(chat, coin)}), WatchKey(chat, coin) in db.watches)
  }

  /** `get_watches_for_chat`: the chat's watches as `{coin: status}`. */
  function WatchesForChat(db: Store, chat: ChatId): (r: map<Coin, Stored>)
    ensures forall c :: c in r <==> WatchKey(chat, c) in db.watches
    ensures forall c :: c in r ==> r[c] == db.watches[WatchKey(chat, c)]
  {
    map k | k in db.watches && k.chat == chat :: k.coin := db.watches[k]
  }

  /** The chats that have at least one row in `watches`. */
  function WatchingChats(db: Store): (r: set<ChatId>)
    ensures forall c :: c in r <==> exists coin :: WatchKey(c, coin) in db.watches
  {
    set k | k in db.watches :: k.chat
  }

  /** Deleting an upserted row leaves every other row as it was before the upsert. */
  lemma RemoveAfterAddWatch(db: Store, chat: ChatId, coin: Coin, status: Stored)
    requires WatchKey(chat, coin) !in db.watches
    ensures RemoveWatch(AddWatch(db, chat, coin, status), chat, coin) == (db, true)
  {
    assert AddWatch(db, chat, coin, status).watches - {WatchKey(chat, coin)} == db.watches;
  }
}

=== FILE: json.dfy ===
/**
 * The JSON documents the upstream marketplace returns, as `json.loads` hands
 * them to the bot: integers and floats stay distinct, objects are mappings
 * from keys to values.
 */
module Json {
  import opened Wrappers

  datatype Json =
    | JNull
    | JBool(b: bool)
    | JInt(i: int)
    | JFloat(f: real)
    | JStr(s: string)
    | JArr(items: seq<Json>)
    | JObj(fields: map<string, Json>)

  /** A JSON object, as the bot's `Dict[str, Any]`. */
  type Object = map<string, Json>

  /**
   * Python compares `bool`, `int` and `float` numerically (`True == 1 == 1.0`).
   * `Norm` sends every numeric scalar to the float of the same value, so that
   * two scalars are equal under Python's `==` iff their normal forms are equal.
   */
  function Norm(v: Json): (r: Json)
    ensures !r.JBool? && !r.JInt?
    ensures (v.JBool? || v.JInt? || v.JFloat?) <==> r.JFloat?
    ensures !(v.JBool? || v.JInt?) ==> r == v
  {
    match v
    case JBool(b) => JFloat(if b then 1.0 else 0.0)
    case JInt(i) => JFloat(i as real)
    case _ => v
  }

  /** Python's `v == k` for an integer literal `k`. */
  predicate EqualsInt(v: Json, k: int) {
    Norm(v) == JFloat(k as real)
  }

  /** `dict.get(key)`: the value under `key`, or `None`. */
  function Get(o: Object, key: string): (r: Option<Json>)
    ensures r.Some? <==> key in o
    ensures r.Some? ==> r.value == o[key]
  {
    if key in o then Some(o[key]) else None
  }

  /** Python truthiness of `isinstance(v, list)`. */
  predicate IsList(v: Option<Json>) {
    v.Some? && v.value.JArr?
  }

  /**
   * The Python built-ins the bot applies to upstream data whose behaviour is
   * not modelled here: `float(text)` (`None` where it raises `ValueError`)
   * and `str(v)` for a value that is not already a string.
   */
  datatype Builtins = Builtins(parseFloat: string -> Option<real>, render: Json -> string)

  lemma EqualsIntIsPythonEquality(v: Json, k: int)
    ensures EqualsInt(v, k) <==>
      (v == JInt(k) || v == JFloat(k as real) || (k == 1 && v == JBool(true)) || (k == 0 && v == JBool(false)))
  {
  }
}

=== FILE: models.dfy ===
/**
 * `TokenStatus`: the normalised classification of one marketplace record,
 * its display parts, its equality and hash, and its stored form.
 */
module Models {
  import opened Wrappers
  import opened Json
  import PyStr
  import ParserGate

  /** A clock reading (the bot's `datetime`), as an abstract integer. */
  type Timestamp = int

  /**
   * `coin` (lower-cased), `fixedList` (the `sale_status` values of the fixed
   * products, 1 = available, 2 = sold out), `sortApr` and `timestamp`.
   */
  datatype TokenStatus = TokenStatus(coin: string, fixedList: seq<Json>, sortApr: Option<real>, timestamp: Timestamp)

  /** The invariant `__post_init__` establishes: the coin is in lower case. */
  predicate Normalized(s: TokenStatus) {
    PyStr.Lower(s.coin) == s.coin
  }

  /**
   * The dataclass constructor followed by `__post_init__`: a missing
   * timestamp becomes the clock reading `now`, and the coin is lower-cased.
   */
  function Make(coin: string, fixedList: seq<Json>, sortApr: Option<real>, timestamp: Option<Timestamp>, now: Timestamp): (s: TokenStatus)
    ensures Normalized(s)
    ensures s.coin == PyStr.Lower(coin)
    ensures |s.coin| == |coin| && forall k :: 0 <= k < |coin| && !PyStr.IsAsciiUpper(coin[k]) ==> s.coin[k] == coin[k]
    ensures s.fixedList == fixedList && s.sortApr == sortApr
    ensures s.timestamp == if timestamp.Some? then timestamp.value else now
  {
    TokenStatus(PyStr.Lower(coin), fixedList, sortApr, timestamp.GetOr(now))
  }

  /** The normalised coin does not depend on the case the caller wrote it in. */
  lemma MakeIgnoresCase(coin: string, fixedList: seq<Json>, sortApr: Option<real>, timestamp: Option<Timestamp>, now: Timestamp)
    ensures Make(PyStr.Upper(coin), fixedList, sortApr, timestamp, now) == Make(coin, fixedList, sortApr, timestamp, now)
  {
    assert PyStr.Lower(PyStr.Upper(coin)) == PyStr.Lower(coin);
  }

  /**
   * `from_api_response`: the lower-cased `asset`, the `fixed_list` statuses
   * and the parsed `sort_apr` of an upstream record, stamped `now`.
   */
  function FromApiResponse(item: Object, now: Timestamp, b: Builtins): (s: TokenStatus)
    ensures Normalized(s) && s.timestamp == now
    ensures s.coin == ParserGate.AssetKey(item, b)
    ensures s.fixedList == ParserGate.ExtractSaleStatuses(item).fixedList
    ensures s.sortApr == ParserGate.SortAprPercent(item, b)
  {
    Make(ParserGate.AssetText(item, b), ParserGate.ExtractSaleStatuses(item).fixedList,
         ParserGate.SortAprPercent(item, b), Some(now), now)
  }

  // ---------------------------------------------------------------------
  // Classification
  // ---------------------------------------------------------------------

  /** Some entry equals `k` under Python's `==` (`any(s == k ...)`). */
  predicate HasCode(fl: seq<Json>, k: int) {
    exists i :: 0 <= i < |fl| && EqualsInt(fl[i], k)
  }

  /** Every entry equals `k` under Python's `==` (`all(s == k ...)`). */
  predicate AllCode(fl: seq<Json>, k: int) {
    forall i :: 0 <= i < |fl| ==> EqualsInt(fl[i], k)
  }

  /** `is_available`: at least one product is on sale. */
  predicate IsAvailable(s: TokenStatus) {
    HasCode(s.fixedList, 1)
  }

  /** `is_sold_out`: there are products and all of them are sold out. */
  predicate IsSoldOut(s: TokenStatus) {
    |s.fixedList| > 0 && AllCode(s.fixedList, 2)
  }

  /** `is_partially_available`: some products are on sale and some are sold out. */
  predicate IsPartiallyAvailable(s: TokenStatus) {
    HasCode(s.fixedList, 1) && HasCode(s.fixedList, 2)
  }

  /** The three predicates are consistent: never sold out and available, and partial implies available. */
  lemma ClassificationConsistent(s: TokenStatus)
    ensures !(IsSoldOut(s) && IsAvailable(s))
    ensures IsPartiallyAvailable(s) ==> IsAvailable(s) && !IsSoldOut(s)
  {
  }

  /** The four glyphs of `get_status_emoji`: 🟡, 🟢, 🔴 and ⚪. */
  datatype Glyph = Yellow | Green | Red | White

  /** `get_status_emoji`: partial before available before sold out before anything else. */
  function StatusEmoji(s: TokenStatus): (g: Glyph)
    ensures g == Yellow <==> IsPartiallyAvailable(s)
    ensures g == Green <==> IsAvailable(s) && !HasCode(s.fixedList, 2)
    ensures g == Red <==> IsSoldOut(s)
    ensures g == White <==> !HasCode(s.fixedList, 1) && !IsSoldOut(s)
  {
    if IsPartiallyAvailable(s) then Yellow
    else if IsAvailable(s) then Green
    else if IsSoldOut(s) then Red
    else White
  }

  /** The phrases of `get_status_text`; the last one quotes the list itself. */
  datatype StatusText =
    | NoFixedProducts
    | PartiallyAvailable
    | AvailableToBuy
    | SoldOut
    | UnknownStatus(list: seq<Json>)

  /** `get_status_text`: the empty list is checked first, then the glyph's priority order. */
  function StatusTextOf(s: TokenStatus): (t: StatusText)
    ensures t == NoFixedProducts <==> |s.fixedList| == 0
    ensures t == PartiallyAvailable <==> IsPartiallyAvailable(s)
    ensures t == AvailableToBuy <==> IsAvailable(s) && !HasCode(s.fixedList, 2)
    ensures t == SoldOut <==> IsSoldOut(s)
    ensures t.UnknownStatus? <==> |s.fixedList| > 0 && !HasCode(s.fixedList, 1) && !AllCode(s.fixedList, 2)
    ensures t.UnknownStatus? ==> t.list == s.fixedList
  {
    if |s.fixedList| == 0 then NoFixedProducts
    else if IsPartiallyAvailable(s) then PartiallyAvailable
    else if IsAvailable(s) then AvailableToBuy
    else if IsSoldOut(s) then SoldOut
    else UnknownStatus(s.fixedList)
  }

  /**
   * The glyph and the phrase agree: the white glyph covers both the empty
   * list and the "unknown" phrase, every other glyph has its own phrase.
   */
  lemma GlyphMatchesText(s: TokenStatus)
    ensures StatusEmoji(s) == White <==> StatusTextOf(s) == NoFixedProducts || StatusTextOf(s).UnknownStatus?
    ensures StatusEmoji(s) == Yellow <==> StatusTextOf(s) == PartiallyAvailable
    ensures StatusEmoji(s) == Green <==> StatusTextOf(s) == AvailableToBuy
    ensures StatusEmoji(s) == Red <==> StatusTextOf(s) == SoldOut
  {
  }

  /**
   * Glyph and phrase depend only on which codes occur, not on their order:
   * reordering the products changes neither, except that the "unknown"
   * phrase quotes the reordered list.
   */
  lemma ClassificationIgnoresOrder(s: TokenStatus, t: TokenStatus)
    requires multiset(s.fixedList) == multiset(t.fixedList)
    ensures StatusEmoji(s) == StatusEmoji(t)
    ensures StatusTextOf(s).UnknownStatus? == StatusTextOf(t).UnknownStatus?
    ensures !StatusTextOf(s).UnknownStatus? ==> StatusTextOf(s) == StatusTextOf(t)
  {
    forall k ensures HasCode(s.fixedList, k) == HasCode(t.fixedList, k) {
      SameElementsSameCodes(s.fixedList, t.fixedList, k);
      SameElementsSameCodes(t.fixedList, s.fixedList, k);
    }
    forall k ensures AllCode(s.fixedList, k) == AllCode(t.fixedList, k) {
      SameElementsSameCodes(s.fixedList, t.fixedList, k);
      SameElementsSameCodes(t.fixedList, s.fixedList, k);
    }
    assert |s.fixedList| == |multiset(s.fixedList)| == |t.fixedList|;
  }

  lemma SameElementsSameCodes(a: seq<Json>, c: seq<Json>, k: int)
    requires multiset(a) == multiset(c)
    ensures HasCode(a, k) ==> HasCode(c, k)
    ensures AllCode(c, k) ==> AllCode(a, k)
  {
    if HasCode(a, k) {
      var i :| 0 <= i < |a| && EqualsInt(a[i], k);
      assert a[i] in multiset(c);
      var j :| 0 <= j < |c| && c[j] == a[i];
    }
    if AllCode(c, k) {
      forall i | 0 <= i < |a| ensures EqualsInt(a[i], k) {
        assert a[i] in multiset(c);
        var j :| 0 <= j < |c| && c[j] == a[i];
      }
    }
  }

  /** The parts of the line `format_for_user` builds. */
  datatype Display = Display(coin: string, glyph: Glyph, text: StatusText, fixedList: seq<Json>, aprPercent: Option<real>)

  /**
   * `format_for_user`: upper-cased coin, glyph, phrase and list, and an APR
   * suffix (the fraction rescaled to percent) exactly when `sort_apr` is
   * present and non-zero.
   */
  function FormatForUser(s: TokenStatus): (d: Display)
    ensures d.aprPercent.Some? <==> s.sortApr.Some? && s.sortApr.value != 0.0
    ensures d.aprPercent.Some? ==> d.aprPercent.value == 100.0 * s.sortApr.value
    ensures d.coin == PyStr.Upper(s.coin)
    ensures |d.coin| == |s.coin| && forall k :: 0 <= k < |d.coin| ==> !PyStr.IsAsciiLower(d.coin[k])
    ensures d.glyph == StatusEmoji(s) && d.text == StatusTextOf(s) && d.fixedList == s.fixedList
  {
    var apr := if s.sortApr.Some? && s.sortApr.value != 0.0 then Some(s.sortApr.value * 100.0) else None;
    Display(PyStr.Upper(s.coin), StatusEmoji(s), StatusTextOf(s), s.fixedList, apr)
  }

  // ---------------------------------------------------------------------
  // Equality and hash
  // ---------------------------------------------------------------------

  /** Python's `==` on two lists of JSON scalars: same length, entries equal pairwise. */
  predicate SameList(a: seq<Json>, c: seq<Json>) {
    |a| == |c| && forall i :: 0 <= i < |a| ==> Norm(a[i]) == Norm(c[i])
  }

  /** `__eq__`: same coin and same fixed list; APR and timestamp do not take part. */
  predicate Equal(s: TokenStatus, t: TokenStatus) {
    s.coin == t.coin && SameList(s.fixedList, t.fixedList)
  }

  /** The tuple `__hash__` hashes: `(coin, tuple(fixed_list))`, numbers normalised as Python hashes them. */
  datatype HashKey = HashKey(coin: string, codes: seq<Json>)

  /** Python can hash the tuple: no fixed-list entry is a list or a dict. */
  predicate Hashable(s: TokenStatus) {
    forall i :: 0 <= i < |s.fixedList| ==> !s.fixedList[i].JArr? && !s.fixedList[i].JObj?
  }

  /** `__hash__`: the key, or none where `hash` raises `TypeError` on a list or dict entry. */
  function HashOf(s: TokenStatus): (h: Option<HashKey>)
    ensures h.Some? <==> Hashable(s)
    ensures h.Some? ==> h.value.coin == s.coin && |h.value.codes| == |s.fixedList|
  {
    if Hashable(s) then
      Some(HashKey(s.coin, seq(|s.fixedList|, i requires 0 <= i < |s.fixedList| => Norm(s.fixedList[i]))))
    else None
  }

  /** Between hashable statuses, equal statuses hash equally, and equal hash keys mean equal statuses. */
  lemma EqualIffSameHash(s: TokenStatus, t: TokenStatus)
    ensures Hashable(s) && Hashable(t) ==> (Equal(s, t) <==> HashOf(s) == HashOf(t))
  {
    if Hashable(s) && Hashable(t) {
      var hs, ht := HashOf(s).value, HashOf(t).value;
      if HashOf(s) == HashOf(t) {
        forall i | 0 <= i < |s.fixedList| ensures Norm(s.fixedList[i]) == Norm(t.fixedList[i]) {
          assert hs.codes[i] == ht.codes[i];
        }
      }
      if Equal(s, t) {
        assert hs.codes == ht.codes;
      }
    }
  }

  /** Equality is an equivalence that ignores `sort_apr` and `timestamp`. */
  lemma EqualIgnoresAprAndTime(s: TokenStatus, apr: Option<real>, when: Timestamp)
    ensures Equal(s, s.(sortApr := apr, timestamp := when))
  {
  }

  lemma EqualIsEquivalence(s: TokenStatus, t: TokenStatus, u: TokenStatus)
    ensures Equal(s, s)
    ensures Equal(s, t) ==> Equal(t, s)
    ensures Equal(s, t) && Equal(t, u) ==> Equal(s, u)
  {
  }

  // ---------------------------------------------------------------------
  // Stored form
  // ---------------------------------------------------------------------

  /**
   * A stored status string: either the JSON object `to_string` writes (with
   * the `timestamp` member possibly null), or any other text, such as the
   * placeholder `"no_data"`, that is not such an object.
   */
  datatype Stored =
    | Serialized(fixedList: seq<Json>, sortApr: Option<real>, stamp: Option<Timestamp>)
    | Text(text: string)

  /** Decoding failures of `from_string`: `json.loads` rejects the text. */
  datatype DecodeError = JsonDecodeError

  /** `to_string`: the fixed list, APR and timestamp; the coin is not stored. */
  function ToString(s: TokenStatus): (d: Stored)
    ensures d.Serialized? && d.fixedList == s.fixedList && d.sortApr == s.sortApr
  {
    Serialized(s.fixedList, s.sortApr, Some(s.timestamp))
  }

  /**
   * `from_string(coin, data)`: rebuilds a status under `coin`; a missing
   * timestamp is replaced by `now`; text that is not a stored object raises.
   */
  function FromString(coin: string, d: Stored, now: Timestamp): (r: Result<TokenStatus, DecodeError>)
    ensures r.Ok? <==> d.Serialized?
    ensures r.Ok? ==> (Normalized(r.value) && r.value.coin == PyStr.Lower(coin)
                       && r.value.fixedList == d.fixedList && r.value.sortApr == d.sortApr
                       && r.value.timestamp == d.stamp.GetOr(now))
  {
    match d
    case Serialized(fl, apr, stamp) => Ok(Make(coin, fl, apr, stamp, now))
    case Text(_) => Err(JsonDecodeError)
  }

  /**
   * The storage round trip: decoding what `to_string` wrote keeps the fixed
   * list, APR and timestamp, and gives back the very status when decoded
   * under its own coin.
   */
  lemma {:induction false} StoredRoundTrip(s: TokenStatus, coin: string, now: Timestamp)
    ensures FromString(coin, ToString(s), now).Ok?
    ensures var t := FromString(coin, ToString(s), now).value;
      t.fixedList == s.fixedList && t.sortApr == s.sortApr && t.timestamp == s.timestamp
    ensures Normalized(s) && coin == s.coin ==> FromString(coin, ToString(s), now) == Ok(s)
  {
  }

  /** A stored status without a timestamp decodes, stamped with the current clock. */
  lemma MissingTimestampIsReplaced(coin: string, fl: seq<Json>, apr: Option<real>, now: Timestamp)
    ensures FromString(coin, Serialized(fl, apr, None), now) == Ok(Make(coin, fl, apr, None, now))
    ensures FromString(coin, Serialized(fl, apr, None), now).value.timestamp == now
  {
  }
}

=== FILE: monitor.dfy ===
/**
 * One pass of the monitor (`_check_once`): for every watch of a snapshot,
 * skip paused chats, fetch the token, raise at most one failure alert while
 * the API is failing, record the new status and announce a changed fixed
 * list; after the pass, one recovery alert once the API answers again.
 */
module Monitor {
  import opened Wrappers
  import opened Json
  import opened Models
  import opened Database
  import opened WatchRegistry

  /** What `fetch_token_info(coin)` did: raised, or returned `info` at clock reading `at`. */
  datatype FetchOutcome = FetchRaised | FetchReturned(info: Option<Object>, at: Timestamp)

  /** A truthy answer: a record that is present and not the empty dict. */
  predicate Succeeded(o: FetchOutcome) {
    o.FetchReturned? && o.info.Some? && o.info.value != map[]
  }

  /** One entry of the `get_watches()` snapshot, with the outcome of its fetch. */
  datatype Check = Check(chat: ChatId, coin: Coin, outcome: FetchOutcome)

  /** The check is skipped: its chat is paused in the store. */
  predicate Skipped(db: Store, c: Check) {
    IsPaused(db, c.chat)
  }

  /** The check counts as a failure: not skipped, and the fetch raised or came back empty. */
  predicate Fails(db: Store, c: Check) {
    !Skipped(db, c) && !Succeeded(c.outcome)
  }

  /** The check counts as a success: not skipped, and the fetch returned a record. */
  predicate Fetched(db: Store, c: Check) {
    !Skipped(db, c) && Succeeded(c.outcome)
  }

  /**
   * The messages of a pass. Alerts go to every subscriber at the time (with
   * none, the alert is only logged); a change notice goes to its chat.
   */
  datatype Notice =
    | ErrorAlert(to: set<ChatId>)
    | EmptyAlert(to: set<ChatId>, coin: Coin)
    | RecoveryAlert(to: set<ChatId>)
    | ChangeNotice(chat: ChatId, coin: Coin, status: TokenStatus)

  predicate IsFailureAlert(n: Notice) {
    n.ErrorAlert? || n.EmptyAlert?
  }

  predicate IsRecoveryAlert(n: Notice) {
    n.RecoveryAlert?
  }

  /** How many of `ns` are of the given kind. */
  function Count(ns: seq<Notice>, kind: Notice -> bool): (n: nat)
    ensures n <= |ns|
    ensures n == 0 <==> forall i :: 0 <= i < |ns| ==> !kind(ns[i])
  {
    if ns == [] then 0 else Count(ns[..|ns| - 1], kind) + (if kind(ns[|ns| - 1]) then 1 else 0)
  }

  lemma CountAppend(ns: seq<Notice>, extra: seq<Notice>, kind: Notice -> bool)
    requires |extra| <= 1
    ensures Count(ns + extra, kind) == Count(ns, kind) + (if extra != [] && kind(extra[0]) then 1 else 0)
  {
    if extra != [] {
      assert (ns + extra)[..|ns + extra| - 1] == ns;
    } else {
      assert ns + extra == ns;
    }
  }

  /** The state threaded through a pass: the bot state, the messages so far, and whether any fetch succeeded. */
  datatype Pass = Pass(st: BotState, out: seq<Notice>, anySuccess: bool)

  /**
   * The failure branch: the first failure while no alert is outstanding
   * raises one alert and sets `global_alerted`; later ones are silent.
   */
  function Fail(p: Pass, c: Check): (r: Pass)
    ensures r.st == p.st.(globalAlerted := true) && r.anySuccess == p.anySuccess
    ensures p.st.globalAlerted ==> r.out == p.out
    ensures !p.st.globalAlerted ==> (|r.out| == |p.out| + 1 && r.out[..|p.out|] == p.out
      && IsFailureAlert(r.out[|p.out|]) && r.out[|p.out|].to == p.st.subscribers)
    ensures Count(r.out, IsFailureAlert) == Count(p.out, IsFailureAlert) + (if p.st.globalAlerted then 0 else 1)
    ensures Count(r.out, IsRecoveryAlert) == Count(p.out, IsRecoveryAlert)
  {
    if p.st.globalAlerted then p
    else
      var alert := if c.outcome.FetchRaised? then ErrorAlert(p.st.subscribers) else EmptyAlert(p.st.subscribers, c.coin);
      CountAppend(p.out, [alert], IsFailureAlert);
      CountAppend(p.out, [alert], IsRecoveryAlert);
      Pass(p.st.(globalAlerted := true), p.out + [alert], p.anySuccess)
  }

  /**
   * The previous status as `_check_once` reads it: a missing or empty
   * string is no prior; anything else goes through `from_string`, which
   * raises on text that is not a stored status.
   */
  function PriorAsWritten(stored: Option<Stored>, coin: Coin, now: Timestamp): (r: Result<Option<TokenStatus>, DecodeError>)
    ensures r.Err? <==> stored.Some? && stored.value.Text? && stored.value.text != ""
    ensures r == Ok(None) <==> stored.None? || stored.value == Text("")
    ensures r.Ok? && r.value.Some? ==> stored.Some? && FromString(coin, stored.value, now) == Ok(r.value.value)
  {
    if stored.None? || stored.value == Text("") then Ok(None)
    else
      match FromString(coin, stored.value, now)
      case Ok(s) => Ok(Some(s))
      case Err(e) => Err(e)
  }

  /** The corrected reading: a prior that does not decode counts as no prior, like an absent one. */
  function Prior(stored: Option<Stored>, coin: Coin, now: Timestamp): (r: Option<TokenStatus>)
    ensures r.Some? <==> stored.Some? && stored.value.Serialized?
    ensures PriorAsWritten(stored, coin, now).Ok? ==> r == PriorAsWritten(stored, coin, now).value
  {
    match PriorAsWritten(stored, coin, now)
    case Ok(o) => o
    case Err(_) => None
  }

  /** The fixed list changed, or there was no prior status to compare with. */
  predicate ListChanged(prior: Option<TokenStatus>, status: TokenStatus) {
    prior.None? || !SameList(prior.value.fixedList, status.fixedList)
  }

  /**
   * The success branch: `update_status` with the new stored form, and a
   * change notice exactly when it wrote and the fixed list changed.
   */
  function Record(p: Pass, c: Check, status: TokenStatus, prior: Option<TokenStatus>): (r: Pass)
    ensures r.anySuccess
    ensures Current(r.st, c.chat, c.coin) == Some(ToString(status))
    ensures forall chat, coin :: (chat, coin) != (c.chat, c.coin) ==> Current(r.st, chat, coin) == Current(p.st, chat, coin)
    ensures r.st.db.subscribers == p.st.db.subscribers && r.st.subscribers == p.st.subscribers
    ensures r.st.globalAlerted == p.st.globalAlerted && r.st.globalFailures == p.st.globalFailures
    ensures r.st.coinFailures == p.st.coinFailures && r.st.coinAlerted == p.st.coinAlerted
    ensures r.out == p.out || r.out == p.out + [ChangeNotice(c.chat, c.coin, status)]
    ensures r.out != p.out <==> Current(p.st, c.chat, c.coin) != Some(ToString(status)) && ListChanged(prior, status)
    ensures Count(r.out, IsFailureAlert) == Count(p.out, IsFailureAlert)
    ensures Count(r.out, IsRecoveryAlert) == Count(p.out, IsRecoveryAlert)
  {
    var (st, wrote) := UpdateStatus(p.st, c.chat, c.coin, ToString(status));
    CountAppend(p.out, [ChangeNotice(c.chat, c.coin, status)], IsFailureAlert);
    CountAppend(p.out, [ChangeNotice(c.chat, c.coin, status)], IsRecoveryAlert);
    Pass(st, if wrote && ListChanged(prior, status) then p.out + [ChangeNotice(c.chat, c.coin, status)] else p.out, true)
  }

  /** The status built from a successful fetch. */
  function FetchedStatus(c: Check, b: Builtins): TokenStatus
    requires Succeeded(c.outcome)
  {
    FromApiResponse(c.outcome.info.value, c.outcome.at, b)
  }

  /** One watch of the corrected pass. */
  function Step(p: Pass, c: Check, b: Builtins): (r: Pass)
    ensures r.st.db.subscribers == p.st.db.subscribers && r.st.subscribers == p.st.subscribers
    ensures r.st.globalFailures == p.st.globalFailures
    ensures r.st.coinFailures == p.st.coinFailures && r.st.coinAlerted == p.st.coinAlerted
    ensures r.st.globalAlerted == (p.st.globalAlerted || Fails(p.st.db, c))
    ensures r.anySuccess == (p.anySuccess || Fetched(p.st.db, c))
    ensures Count(r.out, IsFailureAlert) == Count(p.out, IsFailureAlert) + (if Fails(p.st.db, c) && !p.st.globalAlerted then 1 else 0)
    ensures Count(r.out, IsRecoveryAlert) == Count(p.out, IsRecoveryAlert)
    ensures !Fetched(p.st.db, c) ==> r.st.watch == p.st.watch && r.st.db.watches == p.st.db.watches
    ensures Fetched(p.st.db, c) ==> Current(r.st, c.chat, c.coin) == Some(ToString(FetchedStatus(c, b)))
    ensures forall chat, coin :: (chat, coin) != (c.chat, c.coin) ==> Current(r.st, chat, coin) == Current(p.st, chat, coin)
  {
    if Skipped(p.st.db, c) then p
    else if !Succeeded(c.outcome) then Fail(p, c)
    else Record(p, c, FetchedStatus(c, b), Prior(Current(p.st, c.chat, c.coin), c.coin, c.outcome.at))
  }

  /**
   * What one watch may send: nothing for a paused chat; only the failure
   * alert for a failed fetch; only the change notice of the fetched status
   * for a successful one. Earlier messages are never touched.
   */
  lemma StepNotices(p: Pass, c: Check, b: Builtins)
    ensures Skipped(p.st.db, c) ==> Step(p, c, b) == p
    ensures var r := Step(p, c, b);
      |r.out| >= |p.out| && r.out[..|p.out|] == p.out
    ensures var r := Step(p, c, b);
      !Fetched(p.st.db, c) ==> forall i :: |p.out| <= i < |r.out| ==> !r.out[i].ChangeNotice?
    ensures var r := Step(p, c, b);
      Fetched(p.st.db, c) ==> forall i :: |p.out| <= i < |r.out| ==> r.out[i] == ChangeNotice(c.chat, c.coin, FetchedStatus(c, b))
  {
  }

  /**
   * One watch as the source does it: a stored placeholder that is not a
   * status makes `from_string` raise out of the pass.
   */
  function StepAsWritten(p: Pass, c: Check, b: Builtins): (r: Result<Pass, DecodeError>)
    ensures r.Err? <==> Fetched(p.st.db, c) && PriorAsWritten(Current(p.st, c.chat, c.coin), c.coin, c.outcome.at).Err?
    ensures r.Ok? ==> r.value == Step(p, c, b)
  {
    if !Fetched(p.st.db, c) then Ok(Step(p, c, b))
    else
      match PriorAsWritten(Current(p.st, c.chat, c.coin), c.coin, c.outcome.at)
      case Err(e) => Err(e)
      case Ok(prior) => Ok(Record(p, c, FetchedStatus(c, b), prior))
  }

  /** The watches of a pass in snapshot order, corrected. */
  function Run(p: Pass, checks: seq<Check>, b: Builtins): Pass
    decreases |checks|
  {
    if checks == [] then p else Run(Step(p, checks[0], b), checks[1..], b)
  }

  /** The watches of a pass in snapshot order, as the source runs them. */
  function RunAsWritten(p: Pass, checks: seq<Check>, b: Builtins): Result<Pass, DecodeError>
    decreases |checks|
  {
    if checks == [] then Ok(p)
    else
      match StepAsWritten(p, checks[0], b)
      case Err(e) => Err(e)
      case Ok(q) => RunAsWritten(q, checks[1..], b)
  }

  /**
   * The end of a pass: after a success while an alert is outstanding, one
   * recovery alert, and every failure counter and flag cleared.
   */
  function Finish(p: Pass): (r: Pass)
    ensures p.anySuccess && p.st.globalAlerted ==>
      && r.out == p.out + [RecoveryAlert(p.st.subscribers)]
      && r.st == p.st.(globalAlerted := false, globalFailures := 0, coinFailures := map[], coinAlerted := {})
    ensures !(p.anySuccess && p.st.globalAlerted) ==> r == p
  {
    if p.anySuccess && p.st.globalAlerted then
      Pass(p.st.(globalAlerted := false, globalFailures := 0, coinFailures := map[], coinAlerted := {}),
           p.out + [RecoveryAlert(p.st.subscribers)], p.anySuccess)
    else p
  }

  /** The state after a pass and the messages it sent, in order. */
  datatype PassResult = PassResult(st: BotState, out: seq<Notice>)

  /** `_check_once` over the snapshot `checks`, with the placeholder read as no prior. */
  function CheckOnce(st: BotState, checks: seq<Check>, b: Builtins): (r: PassResult)
    ensures r.st.db.subscribers == st.db.subscribers && r.st.subscribers == st.subscribers
  {
    RunFrame(Pass(st, [], false), checks, b);
    var q := Finish(Run(Pass(st, [], false), checks, b));
    PassResult(q.st, q.out)
  }

  /** `_check_once` as written: it raises out of the pass on a stored placeholder. */
  function CheckOnceAsWritten(st: BotState, checks: seq<Check>, b: Builtins): (r: Result<PassResult, DecodeError>)
    ensures r.Ok? ==> r.value == CheckOnce(st, checks, b)
  {
    RunAsWrittenCompletesAsCorrected(Pass(st, [], false), checks, b);
    match RunAsWritten(Pass(st, [], false), checks, b)
    case Err(e) => Err(e)
    case Ok(p) => var q := Finish(p); Ok(PassResult(q.st, q.out))
  }

  // ---------------------------------------------------------------------
  // Facts about a run

  /** Some check of `checks` fails against `db`. */
  predicate AnyFails(db: Store, checks: seq<Check>) {
    exists i :: 0 <= i < |checks| && Fails(db, checks[i])
  }

  /** Some check of `checks` succeeds against `db`. */
  predicate AnyFetched(db: Store, checks: seq<Check>) {
    exists i :: 0 <= i < |checks| && Fetched(db, checks[i])
  }

  /** Some successful check of `checks` is about the watch `(chat, coin)`. */
  predicate Refreshes(db: Store, checks: seq<Check>, chat: ChatId, coin: Coin) {
    exists i :: 0 <= i < |checks| && Fetched(db, checks[i]) && checks[i].chat == chat && checks[i].coin == coin
  }

  lemma SplitExists(db: Store, checks: seq<Check>, chat: ChatId, coin: Coin)
    requires checks != []
    ensures AnyFails(db, checks) <==> Fails(db, checks[0]) || AnyFails(db, checks[1..])
    ensures AnyFetched(db, checks) <==> Fetched(db, checks[0]) || AnyFetched(db, checks[1..])
    ensures Refreshes(db, checks, chat, coin) <==>
      (Fetched(db, checks[0]) && checks[0].chat == chat && checks[0].coin == coin) || Refreshes(db, checks[1..], chat, coin)
  {
    SplitAnyFails(db, checks);
    SplitAnyFetched(db, checks);
    SplitRefreshes(db, checks, chat, coin);
  }

  lemma SplitAnyFails(db: Store, checks: seq<Check>)
    requires checks != []
    ensures AnyFails(db, checks) <==> Fails(db, checks[0]) || AnyFails(db, checks[1..])
  {
    if AnyFails(db, checks[1..]) {
      var i :| 0 <= i < |checks[1..]| && Fails(db, checks[1..][i]);
      assert Fails(db, checks[i + 1]);
    }
    if AnyFails(db, checks) && !Fails(db, checks[0]) {
      var i :| 0 <= i < |checks| && Fails(db, checks[i]);
      assert checks[1..][i - 1] == checks[i];
    }
  }

  lemma SplitAnyFetched(db: Store, checks: seq<Check>)
    requires checks != []
    ensures AnyFetched(db, checks) <==> Fetched(db, checks[0]) || AnyFetched(db, checks[1..])
  {
    if AnyFetched(db, checks[1..]) {
      var i :| 0 <= i < |checks[1..]| && Fetched(db, checks[1..][i]);
      assert Fetched(db, checks[i + 1]);
    }
    if AnyFetched(db, checks) && !Fetched(db, checks[0]) {
      var i :| 0 <= i < |checks| && Fetched(db, checks[i]);
      assert checks[1..][i - 1] == checks[i];
    }
  }

  lemma SplitRefreshes(db: Store, checks: seq<Check>, chat: ChatId, coin: Coin)
    requires checks != []
    ensures Refreshes(db, checks, chat, coin) <==>
      (Fetched(db, checks[0]) && checks[0].chat == chat && checks[0].coin == coin) || Refreshes(db, checks[1..], chat, coin)
  {
    if Refreshes(db, checks[1..], chat, coin) {
      var i :| 0 <= i < |checks[1..]| && Fetched(db, checks[1..][i]) && checks[1..][i].chat == chat && checks[1..][i].coin == coin;
      assert checks[i + 1] == checks[1..][i];
    }
    if Refreshes(db, checks, chat, coin) && !(Fetched(db, checks[0]) && checks[0].chat == chat && checks[0].coin == coin) {
      var i :| 0 <= i < |checks| && Fetched(db, checks[i]) && checks[i].chat == chat && checks[i].coin == coin;
      assert checks[1..][i - 1] == checks[i];
    }
  }

  /**
   * A run leaves subscribers, the store's pause flags and the failure
   * counters alone; it alerts once at most, and only when no alert was
   * outstanding; it records whether any fetch succeeded.
   */
  lemma {:induction false} RunFrame(p: Pass, checks: seq<Check>, b: Builtins)
    ensures var q := Run(p, checks, b);
      && q.st.db.subscribers == p.st.db.subscribers && q.st.subscribers == p.st.subscribers
      && q.st.globalFailures == p.st.globalFailures
      && q.st.coinFailures == p.st.coinFailures && q.st.coinAlerted == p.st.coinAlerted
      && q.st.globalAlerted == (p.st.globalAlerted || AnyFails(p.st.db, checks))
      && q.anySuccess == (p.anySuccess || AnyFetched(p.st.db, checks))
      && Count(q.out, IsFailureAlert) == Count(p.out, IsFailureAlert) + (if q.st.globalAlerted && !p.st.globalAlerted then 1 else 0)
      && Count(q.out, IsRecoveryAlert) == Count(p.out, IsRecoveryAlert)
    decreases |checks|
  {
    if checks != [] {
      var p1 := Step(p, checks[0], b);
      RunFrame(p1, checks[1..], b);
      SplitExists(p.st.db, checks, "", "");
    }
  }

  /**
   * A watch that no successful check of the run is about keeps its stored
   * status, in memory and in the store.
   */
  lemma {:induction false} RunLeavesOthers(p: Pass, checks: seq<Check>, b: Builtins, chat: ChatId, coin: Coin)
    requires !Refreshes(p.st.db, checks, chat, coin)
    ensures Current(Run(p, checks, b).st, chat, coin) == Current(p.st, chat, coin)
    ensures WatchKey(chat, coin) in p.st.db.watches ==>
      WatchKey(chat, coin) in Run(p, checks, b).st.db.watches &&
      Run(p, checks, b).st.db.watches[WatchKey(chat, coin)] == p.st.db.watches[WatchKey(chat, coin)]
    decreases |checks|
  {
    if checks != [] {
      SplitExists(p.st.db, checks, chat, coin);
      var p1 := Step(p, checks[0], b);
      if Fetched(p.st.db, checks[0]) {
        var c := checks[0];
        var r := UpdateStatus(p.st, c.chat, c.coin, ToString(FetchedStatus(c, b)));
        assert p1.st.db.watches == r.0.db.watches;
      }
      RunLeavesOthers(p1, checks[1..], b, chat, coin);
    }
  }

  /** Every watch a run refreshes is one memory already holds. */
  predicate Known(st: BotState, checks: seq<Check>) {
    forall i :: 0 <= i < |checks| ==> Current(st, checks[i].chat, checks[i].coin).Some?
  }

  /** Over watches memory holds, a run keeps memory and store in step. */
  lemma {:induction false} RunPreservesMirrors(p: Pass, checks: seq<Check>, b: Builtins)
    requires Mirrors(p.st) && Known(p.st, checks)
    ensures Mirrors(Run(p, checks, b).st)
    decreases |checks|
  {
    if checks != [] {
      var c := checks[0];
      var p1 := Step(p, c, b);
      if Fetched(p.st.db, c) {
        UpdateStatusPreservesMirrors(p.st, c.chat, c.coin, ToString(FetchedStatus(c, b)));
        assert p1.st.db == UpdateStatus(p.st, c.chat, c.coin, ToString(FetchedStatus(c, b))).0.db;
      }
      forall i | 0 <= i < |checks[1..]|
        ensures Current(p1.st, checks[1..][i].chat, checks[1..][i].coin).Some?
      {
        assert checks[1..][i] == checks[i + 1];
      }
      RunPreservesMirrors(p1, checks[1..], b);
    }
  }

  // ---------------------------------------------------------------------
  // Properties of a pass

  /**
   * Alerts of a pass: at most one failure alert, none while an alert is
   * outstanding from an earlier pass, and one exactly when some watch failed
   * and none was outstanding.
   */
  lemma CheckOnceFailureAlerts(st: BotState, checks: seq<Check>, b: Builtins)
    ensures var r := CheckOnce(st, checks, b);
      && Count(r.out, IsFailureAlert) <= 1
      && (st.globalAlerted ==> Count(r.out, IsFailureAlert) == 0)
      && (Count(r.out, IsFailureAlert) == 1 <==> !st.globalAlerted && AnyFails(st.db, checks))
  {
    var p := Pass(st, [], false);
    RunFrame(p, checks, b);
    var q := Run(p, checks, b);
    var f := Finish(q);
    assert CheckOnce(st, checks, b) == PassResult(f.st, f.out);
    if q.anySuccess && q.st.globalAlerted {
      CountAppend(q.out, [RecoveryAlert(q.st.subscribers)], IsFailureAlert);
    }
  }

  /**
   * Recovery: when some fetch succeeded and an alert was outstanding (from
   * an earlier pass or this one), the pass ends with exactly one recovery
   * alert to all subscribers and every failure counter and flag cleared;
   * otherwise no recovery alert goes out.
   */
  lemma CheckOnceRecovery(st: BotState, checks: seq<Check>, b: Builtins)
    ensures var r := CheckOnce(st, checks, b);
      var recovers := AnyFetched(st.db, checks) && (st.globalAlerted || AnyFails(st.db, checks));
      && Count(r.out, IsRecoveryAlert) == (if recovers then 1 else 0)
      && (recovers ==> (r.out[|r.out| - 1] == RecoveryAlert(st.subscribers)
                        && !r.st.globalAlerted && r.st.globalFailures == 0
                        && r.st.coinFailures == map[] && r.st.coinAlerted == {}))
      && (!recovers ==> r.st.globalAlerted == (st.globalAlerted || AnyFails(st.db, checks)))
  {
    var p := Pass(st, [], false);
    RunFrame(p, checks, b);
    var q := Run(p, checks, b);
    if q.anySuccess && q.st.globalAlerted {
      CountAppend(q.out, [RecoveryAlert(q.st.subscribers)], IsRecoveryAlert);
    }
  }

  /** Paused chats, failed fetches and unlisted watches keep their stored status. */
  lemma CheckOnceLeavesUnrefreshed(st: BotState, checks: seq<Check>, b: Builtins, chat: ChatId, coin: Coin)
    requires !Refreshes(st.db, checks, chat, coin)
    ensures Current(CheckOnce(st, checks, b).st, chat, coin) == Current(st, chat, coin)
  {
    RunLeavesOthers(Pass(st, [], false), checks, b, chat, coin);
  }

  /** A pass over the registry's own watches keeps memory and store in step. */
  lemma CheckOncePreservesMirrors(st: BotState, checks: seq<Check>, b: Builtins)
    requires Mirrors(st) && Known(st, checks)
    ensures Mirrors(CheckOnce(st, checks, b).st)
  {
    RunPreservesMirrors(Pass(st, [], false), checks, b);
  }

  /**
   * De-duplication across passes: after a pass in which every fetch failed,
   * a later pass sends no failure alert, whatever it sees.
   */
  lemma FailingPassesAlertOnce(st: BotState, first: seq<Check>, second: seq<Check>, b: Builtins)
    requires AnyFails(st.db, first) && !AnyFetched(st.db, first)
    ensures CheckOnce(st, first, b).st.globalAlerted
    ensures Count(CheckOnce(CheckOnce(st, first, b).st, second, b).out, IsFailureAlert) == 0
  {
    CheckOnceRecovery(st, first, b);
    CheckOnceFailureAlerts(CheckOnce(st, first, b).st, second, b);
  }

  /**
   * A change notice for a refreshed watch: the first successful check after
   * subscribing (no prior, or a placeholder) is announced.
   */
  lemma FirstCheckAnnounces(p: Pass, c: Check, b: Builtins)
    requires Fetched(p.st.db, c)
    requires Current(p.st, c.chat, c.coin).None? || Current(p.st, c.chat, c.coin).value.Text?
    ensures Step(p, c, b).out == p.out + [ChangeNotice(c.chat, c.coin, FetchedStatus(c, b))]
  {
  }

  /** The same record seen twice in a row: the second time nothing is written and nothing is sent. */
  lemma SameRecordTwiceIsSilent(p: Pass, c: Check, b: Builtins)
    requires Fetched(p.st.db, c)
    ensures var q := Step(p, c, b);
      Step(q, c, b).st == q.st && Step(q, c, b).out == q.out
  {
  }

  /**
   * The same fixed list seen again at a later clock reading is written
   * again (the stored form carries the timestamp) but not announced.
   */
  lemma NewTimestampRewritesSilently(p: Pass, c: Check, at: Timestamp, b: Builtins)
    requires Fetched(p.st.db, c) && at != c.outcome.at
    ensures var c2 := c.(outcome := c.outcome.(at := at));
      var q := Step(p, c, b);
      && Current(Step(q, c2, b).st, c.chat, c.coin) != Current(q.st, c.chat, c.coin)
      && Step(q, c2, b).out == q.out
  {
  }

  // ---------------------------------------------------------------------
  // The placeholder status

  /** The watches whose stored status is text other than a stored status or the empty string. */
  ghost predicate NoPlaceholders(st: BotState) {
    forall chat, coin :: Current(st, chat, coin).Some? && Current(st, chat, coin).value.Text? ==>
      Current(st, chat, coin).value.text == ""
  }

  /**
   * As written, a pass that fetches successfully for a watch whose stored
   * status is the placeholder raises out of `_check_once`.
   */
  lemma PlaceholderAbortsPass(st: BotState, c: Check, b: Builtins)
    requires Fetched(st.db, c)
    requires Current(st, c.chat, c.coin) == Some(Text("no_data"))
    ensures CheckOnceAsWritten(st, [c], b).Err?
  {
  }

  /** Without placeholders, the source's pass and the corrected one agree. */
  lemma {:induction false} AsWrittenAgreesWithoutPlaceholders(p: Pass, checks: seq<Check>, b: Builtins)
    requires NoPlaceholders(p.st)
    ensures RunAsWritten(p, checks, b) == Ok(Run(p, checks, b))
    decreases |checks|
  {
    if checks != [] {
      var c := checks[0];
      var p1 := Step(p, c, b);
      assert StepAsWritten(p, c, b) == Ok(p1);
      assert NoPlaceholders(p1.st);
      AsWrittenAgreesWithoutPlaceholders(p1, checks[1..], b);
    }
  }

  /** Wherever the source's run gets through the snapshot, it ends where the corrected run does. */
  lemma {:induction false} RunAsWrittenCompletesAsCorrected(p: Pass, checks: seq<Check>, b: Builtins)
    ensures RunAsWritten(p, checks, b).Ok? ==> RunAsWritten(p, checks, b).value == Run(p, checks, b)
    decreases |checks|
  {
    if checks != [] && StepAsWritten(p, checks[0], b).Ok? {
      RunAsWrittenCompletesAsCorrected(Step(p, checks[0], b), checks[1..], b);
    }
  }

  /**
   * The corrected pass extends the source's: equal to it wherever that one
   * completes, and it always completes when no placeholder is stored.
   */
  lemma CheckOnceExtendsAsWritten(st: BotState, checks: seq<Check>, b: Builtins)
    ensures CheckOnceAsWritten(st, checks, b).Ok? ==> CheckOnceAsWritten(st, checks, b).value == CheckOnce(st, checks, b)
    ensures NoPlaceholders(st) ==> CheckOnceAsWritten(st, checks, b) == Ok(CheckOnce(st, checks, b))
  {
    RunAsWrittenCompletesAsCorrected(Pass(st, [], false), checks, b);
    if NoPlaceholders(st) {
      AsWrittenAgreesWithoutPlaceholders(Pass(st, [], false), checks, b);
    }
  }
}

=== FILE: parser_gate.dfy ===
/**
 * The response-shaping and selection logic of the marketplace client:
 * the threshold cache, APR parsing, the envelope probe, sale-status
 * extraction, single-token selection, the per-page threshold filter and the
 * best-effort merge of a full threshold scan. Network access is replaced by
 * the outcome of each request, given as data.
 */
module ParserGate {
  import opened Wrappers
  import opened Json
  import PyStr

  // ---------------------------------------------------------------------
  // ProjectCache
  // ---------------------------------------------------------------------

  /** A cached scan result and the clock reading (seconds) when it was stored. */
  datatype CacheEntry = CacheEntry(data: seq<Json>, timestamp: real)

  /** `CacheEntry.is_expired`: strictly older than `ttl` seconds at clock reading `now`. */
  predicate IsExpired(e: CacheEntry, ttl: real, now: real) {
    now - e.timestamp > ttl
  }

  /** `ProjectCache`: one entry per threshold value. */
  type ProjectCache = map<real, CacheEntry>

  /** The time-to-live `fetch_projects_with_apr_gt` passes to the cache, in seconds. */
  const ScanCacheTtl: real := 300.0

  /** `ProjectCache.get`: the stored data while the entry is at most `ttl` seconds old. */
  function CacheGet(c: ProjectCache, threshold: real, ttl: real, now: real): (r: Option<seq<Json>>)
    ensures r.Some? <==> threshold in c && now - c[threshold].timestamp <= ttl
    ensures r.Some? ==> r.value == c[threshold].data
  {
    if threshold in c && !IsExpired(c[threshold], ttl, now) then Some(c[threshold].data) else None
  }

  /** `ProjectCache.set`: the entry for `threshold` is replaced (last write wins), stamped `now`. */
  function CacheSet(c: ProjectCache, threshold: real, data: seq<Json>, now: real): (r: ProjectCache)
    ensures r.Keys == c.Keys + {threshold}
    ensures forall t :: t in c && t != threshold ==> r[t] == c[t]
  {
    c[threshold := CacheEntry(data, now)]
  }

  /** `ProjectCache.clear`: no threshold hits afterwards. */
  function CacheClear(c: ProjectCache): (r: ProjectCache)
    ensures forall t, ttl, now :: CacheGet(r, t, ttl, now).None?
  {
    map[]
  }

  /**
   * What a read sees after a write: the written data for the same threshold
   * until it is more than `ttl` seconds old, and the previous answer for every
   * other threshold.
   */
  lemma CacheSetThenGet(c: ProjectCache, threshold: real, data: seq<Json>, stamp: real,
                        t: real, ttl: real, now: real)
    ensures CacheGet(CacheSet(c, threshold, data, stamp), t, ttl, now) ==
      if t == threshold then (if now - stamp <= ttl then Some(data) else None)
      else CacheGet(c, t, ttl, now)
  {
  }

  // ---------------------------------------------------------------------
  // APR parsing
  // ---------------------------------------------------------------------

  const Nbsp: char := '\U{A0}'

  /**
   * The string-cleaning step of `_parse_apr_percent`: `%` removed, a
   * non-breaking space turned into a space, spaces removed, and `,` turned
   * into `.`, in that order.
   */
  function CleanApr(s: string): (r: string)
    ensures '%' !in r && Nbsp !in r && ' ' !in r && ',' !in r
    ensures |r| <= |s|
  {
    PyStr.Replace(PyStr.Replace(PyStr.Replace(PyStr.Replace(s, '%', ""), Nbsp, " "), ' ', ""), ',', ".")
  }

  /** What cleaning does to a single character. */
  function CleanChar(c: char): string {
    if c == '%' || c == Nbsp || c == ' ' then ""
    else if c == ',' then "."
    else [c]
  }

  /** Reference definition of the cleaning: every character is cleaned on its own. */
  function CleanEachChar(s: string): string {
    if |s| == 0 then "" else CleanChar(s[0]) + CleanEachChar(s[1..])
  }

  lemma CleanAprAppend(a: string, b: string)
    ensures CleanApr(a + b) == CleanApr(a) + CleanApr(b)
  {
    var r1a := PyStr.Replace(a, '%', "");
    var r1b := PyStr.Replace(b, '%', "");
    PyStr.ReplaceAppend(a, b, '%', "");
    var r2a := PyStr.Replace(r1a, Nbsp, " ");
    var r2b := PyStr.Replace(r1b, Nbsp, " ");
    PyStr.ReplaceAppend(r1a, r1b, Nbsp, " ");
    var r3a := PyStr.Replace(r2a, ' ', "");
    var r3b := PyStr.Replace(r2b, ' ', "");
    PyStr.ReplaceAppend(r2a, r2b, ' ', "");
    PyStr.ReplaceAppend(r3a, r3b, ',', ".");
  }

  /**
   * The four successive `replace` calls act character by character: the
   * cleaned string is the concatenation of the cleaned characters, so the
   * order of the replacements never lets one undo another.
   */
  lemma {:induction false} CleanAprIsPerCharacter(s: string)
    ensures CleanApr(s) == CleanEachChar(s)
  {
    if |s| > 0 {
      assert s == [s[0]] + s[1..];
      CleanAprAppend([s[0]], s[1..]);
      CleanAprIsPerCharacter(s[1..]);
    }
  }

  /**
   * `_parse_apr_percent`: `None` (absent key or JSON null) gives no value; a
   * number, or a bool (Python's `bool` is an `int`), is converted with
   * `float`; a string is cleaned and then parsed; any other value gives no value.
   */
  function ParseAprPercent(v: Option<Json>, b: Builtins): (r: Option<real>)
    ensures v.None? || v.value.JNull? || v.value.JArr? || v.value.JObj? ==> r.None?
    ensures v.Some? && (v.value.JBool? || v.value.JInt? || v.value.JFloat?) ==> r == Some(Norm(v.value).f)
    ensures v.Some? && v.value.JStr? ==> r == b.parseFloat(CleanApr(v.value.s))
  {
    match v
    case None => None
    case Some(JNull) => None
    case Some(JBool(x)) => Some(if x then 1.0 else 0.0)
    case Some(JInt(i)) => Some(i as real)
    case Some(JFloat(f)) => Some(f)
    case Some(JStr(s)) => b.parseFloat(CleanApr(s))
    case Some(_) => None
  }

  /** `_sort_apr_percent`: the parsed `sort_apr` field of a record. */
  function SortAprPercent(item: Object, b: Builtins): Option<real> {
    ParseAprPercent(Get(item, "sort_apr"), b)
  }

  // ---------------------------------------------------------------------
  // Envelope probing
  // ---------------------------------------------------------------------

  /** The top-level keys probed for the record list, in order. */
  const TopLevelKeys: seq<string> := ["data", "list", "result", "rows"]

  /** The keys probed inside a `data` object, in order. */
  const NestedKeys: seq<string> := ["list", "rows", "data"]

  /** The items of the first key in `keys` whose value is a list. */
  function FirstList(o: Object, keys: seq<string>): (r: Option<seq<Json>>)
    ensures r.None? <==> forall i :: 0 <= i < |keys| ==> !IsList(Get(o, keys[i]))
    ensures r.Some? ==> exists i :: 0 <= i < |keys| && IsList(Get(o, keys[i])) && r.value == o[keys[i]].items
  {
    if |keys| == 0 then None
    else if IsList(Get(o, keys[0])) then Some(o[keys[0]].items)
    else
      var r := FirstList(o, keys[1..]);
      assert forall i :: 1 <= i < |keys| ==> keys[i] == keys[1..][i - 1];
      r
  }

  lemma FirstListStep(o: Object, keys: seq<string>)
    requires |keys| > 0
    ensures FirstList(o, keys) ==
      if IsList(Get(o, keys[0])) then Some(o[keys[0]].items) else FirstList(o, keys[1..])
  {
  }

  /**
   * `_extract_projects`: the candidate accessor paths are data; the result is
   * the first list found among `data`, `list`, `result`, `rows`, then, when
   * `data` is an object, among `data.list`, `data.rows`, `data.data`, and
   * otherwise the empty list.
   */
  function ExtractProjects(payload: Object): (r: seq<Json>)
    ensures r ==
      if IsList(Get(payload, "data")) then payload["data"].items
      else if IsList(Get(payload, "list")) then payload["list"].items
      else if IsList(Get(payload, "result")) then payload["result"].items
      else if IsList(Get(payload, "rows")) then payload["rows"].items
      else if "data" in payload && payload["data"].JObj? then
        var d := payload["data"].fields;
        if IsList(Get(d, "list")) then d["list"].items
        else if IsList(Get(d, "rows")) then d["rows"].items
        else if IsList(Get(d, "data")) then d["data"].items
        else []
      else []
  {
    FirstListStep(payload, TopLevelKeys);
    FirstListStep(payload, TopLevelKeys[1..]);
    FirstListStep(payload, TopLevelKeys[2..]);
    FirstListStep(payload, TopLevelKeys[3..]);
    assert TopLevelKeys[1..][1..] == TopLevelKeys[2..];
    assert TopLevelKeys[2..][1..] == TopLevelKeys[3..];
    assert TopLevelKeys[3..][1..] == [];
    match FirstList(payload, TopLevelKeys)
    case Some(items) => items
    case None =>
      if "data" in payload && payload["data"].JObj? then
        var d := payload["data"].fields;
        FirstListStep(d, NestedKeys);
        FirstListStep(d, NestedKeys[1..]);
        FirstListStep(d, NestedKeys[2..]);
        assert NestedKeys[1..][1..] == NestedKeys[2..];
        assert NestedKeys[2..][1..] == [];
        FirstList(d, NestedKeys).GetOr([])
      else []
  }

  // ---------------------------------------------------------------------
  // Sale statuses
  // ---------------------------------------------------------------------

  /** A list entry that `extract_sale_statuses` reads: a mapping with a `sale_status` key. */
  predicate HasSaleStatus(e: Json) {
    e.JObj? && "sale_status" in e.fields
  }

  /** The value an entry contributes: its `sale_status` when it qualifies, nothing otherwise. */
  function StatusOfEntry(e: Json): (r: seq<Json>)
    ensures |r| <= 1 && (r != [] <==> HasSaleStatus(e))
  {
    if HasSaleStatus(e) then [e.fields["sale_status"]] else []
  }

  /** The walk over the list: each entry's contribution, in order. */
  function CollectSaleStatuses(entries: seq<Json>): (r: seq<Json>)
    ensures |r| <= |entries|
  {
    if |entries| == 0 then [] else StatusOfEntry(entries[0]) + CollectSaleStatuses(entries[1..])
  }

  /** Every collected value comes from a qualifying entry, and every qualifying entry's value is collected. */
  lemma {:induction false} CollectSaleStatusesMembers(entries: seq<Json>)
    ensures forall x :: x in CollectSaleStatuses(entries) ==>
      exists e :: e in entries && HasSaleStatus(e) && e.fields["sale_status"] == x
    ensures forall e :: e in entries && HasSaleStatus(e) ==> e.fields["sale_status"] in CollectSaleStatuses(entries)
  {
    if |entries| > 0 {
      CollectSaleStatusesMembers(entries[1..]);
      assert forall e :: e in entries ==> e == entries[0] || e in entries[1..];
      assert entries[0] in entries;
      assert forall e :: e in entries[1..] ==> e in entries;
    }
  }

  /** The walk over consecutive lists is the walk over the first followed by the walk over the second. */
  lemma {:induction false} CollectSaleStatusesAppend(a: seq<Json>, b: seq<Json>)
    ensures CollectSaleStatuses(a + b) == CollectSaleStatuses(a) + CollectSaleStatuses(b)
  {
    if |a| == 0 {
      assert a + b == b;
    } else {
      assert (a + b)[0] == a[0];
      assert (a + b)[1..] == a[1..] + b;
      CollectSaleStatusesAppend(a[1..], b);
    }
  }

  /** The `sale_status` values of the qualifying entries, in list order. */
  function SaleStatusValues(entries: seq<Json>): (r: seq<Json>)
    ensures |r| <= |entries|
    ensures forall x :: x in r ==> exists e :: e in entries && HasSaleStatus(e) && e.fields["sale_status"] == x
    ensures forall e :: e in entries && HasSaleStatus(e) ==> e.fields["sale_status"] in r
  {
    CollectSaleStatusesMembers(entries);
    CollectSaleStatuses(entries)
  }

  /**
   * Together with its definition on a single entry, this determines
   * `SaleStatusValues` completely: exactly the qualifying entries contribute,
   * each once, and in the order of the list.
   */
  lemma SaleStatusValuesAppend(a: seq<Json>, b: seq<Json>)
    ensures SaleStatusValues(a + b) == SaleStatusValues(a) + SaleStatusValues(b)
  {
    CollectSaleStatusesAppend(a, b);
  }

  lemma SaleStatusValuesSingle(e: Json)
    ensures SaleStatusValues([e]) == if HasSaleStatus(e) then [e.fields["sale_status"]] else []
  {
  }

  /** The two lists `extract_sale_statuses` returns. */
  datatype SaleStatuses = SaleStatuses(fixedList: seq<Json>, fixableList: seq<Json>)

  /** The statuses found under one field: nothing unless the field holds a list. */
  function StatusesOf(field: Option<Json>): (r: seq<Json>)
    ensures !IsList(field) ==> r == []
    ensures IsList(field) ==> r == SaleStatusValues(field.value.items)
  {
    if IsList(field) then SaleStatusValues(field.value.items) else []
  }

  /** `extract_sale_statuses`: the `fixed_list` and `fixable_list` statuses of a record. */
  function ExtractSaleStatuses(item: Object): (r: SaleStatuses)
    ensures !IsList(Get(item, "fixed_list")) ==> r.fixedList == []
    ensures !IsList(Get(item, "fixable_list")) ==> r.fixableList == []
    ensures IsList(Get(item, "fixed_list")) ==> r.fixedList == SaleStatusValues(item["fixed_list"].items)
    ensures IsList(Get(item, "fixable_list")) ==> r.fixableList == SaleStatusValues(item["fixable_list"].items)
  {
    SaleStatuses(StatusesOf(Get(item, "fixed_list")), StatusesOf(Get(item, "fixable_list")))
  }

  // ---------------------------------------------------------------------
  // Single-token lookup
  // ---------------------------------------------------------------------

  /** Calling `.get` on a list entry that is not a JSON object raises `AttributeError`. */
  datatype FetchError = AttributeError

  /** `str(item.get("asset", ""))`. */
  function AssetText(item: Object, b: Builtins): string {
    match Get(item, "asset")
    case None => ""
    case Some(JStr(s)) => s
    case Some(v) => b.render(v)
  }

  /** `str(item.get("asset", "")).lower()`, compared against the search key. */
  function AssetKey(item: Object, b: Builtins): string {
    PyStr.Lower(AssetText(item, b))
  }

  predicate MatchesKey(item: Json, key: string, b: Builtins) {
    item.JObj? && AssetKey(item.fields, b) == key
  }

  /**
   * The scan in `fetch_token_info` from position `from`: the index of the
   * first record whose asset matches, `None` when every record was read and
   * none matched, or the error raised by the first non-object record read.
   */
  function FindMatch(items: seq<Json>, key: string, b: Builtins, from: nat): (r: Result<Option<nat>, FetchError>)
    requires from <= |items|
    ensures r.Ok? && r.value.Some? ==>
      from <= r.value.value < |items| && MatchesKey(items[r.value.value], key, b)
      && forall j :: from <= j < r.value.value ==> items[j].JObj? && !MatchesKey(items[j], key, b)
    ensures r.Ok? && r.value.None? ==> forall j :: from <= j < |items| ==> items[j].JObj? && !MatchesKey(items[j], key, b)
    ensures r.Err? ==> exists j :: (from <= j < |items| && !items[j].JObj?
      && forall i :: from <= i < j ==> items[i].JObj? && !MatchesKey(items[i], key, b))
    decreases |items| - from
  {
    if from == |items| then Ok(None)
    else if !items[from].JObj? then Err(AttributeError)
    else if MatchesKey(items[from], key, b) then Ok(Some(from))
    else FindMatch(items, key, b, from + 1)
  }

  /** Record `i` matches `key` and every record before it is an object that does not. */
  predicate IsFirstMatch(items: seq<Json>, i: int, key: string, b: Builtins) {
    && 0 <= i < |items|
    && MatchesKey(items[i], key, b)
    && forall j :: 0 <= j < i ==> items[j].JObj? && !MatchesKey(items[j], key, b)
  }

  /**
   * The selection loop of `fetch_token_info` over a non-empty record list:
   * the first record whose lower-cased asset equals `key`, otherwise the
   * first record; reading a non-object record before a match raises.
   */
  function SelectToken(items: seq<Json>, key: string, b: Builtins): (r: Result<Object, FetchError>)
    requires |items| > 0
    ensures forall i :: IsFirstMatch(items, i, key, b) ==> r == Ok(items[i].fields)
    ensures (forall j :: 0 <= j < |items| ==> items[j].JObj? && !MatchesKey(items[j], key, b))
      ==> r == Ok(items[0].fields)
    ensures r.Ok? ==> JObj(r.value) in items
    ensures r.Err? <==> exists j :: (0 <= j < |items| && !items[j].JObj?
      && forall i :: 0 <= i < j ==> !MatchesKey(items[i], key, b))
  {
    match FindMatch(items, key, b, 0)
    case Err(e) => Err(e)
    case Ok(Some(i)) => Ok(items[i].fields)
    case Ok(None) => Ok(items[0].fields)
  }

  /**
   * `fetch_token_info` applied to the search response `payload`: no records
   * gives `None`; otherwise the selection of `SelectToken` with the stripped,
   * lower-cased search key. A payload that is not an object raises.
   */
  function FetchTokenInfo(payload: Json, searchCoin: string, b: Builtins): (r: Result<Option<Object>, FetchError>)
    ensures !payload.JObj? ==> r.Err?
    ensures r.Ok? && r.value.None? <==> payload.JObj? && ExtractProjects(payload.fields) == []
    ensures payload.JObj? && ExtractProjects(payload.fields) != [] ==>
      var sel := SelectToken(ExtractProjects(payload.fields), PyStr.Lower(PyStr.Strip(searchCoin)), b);
      r == if sel.Ok? then Ok(Some(sel.value)) else Err(sel.error)
  {
    if !payload.JObj? then Err(AttributeError)
    else
      var items := ExtractProjects(payload.fields);
      if |items| == 0 then Ok(None)
      else
        match SelectToken(items, PyStr.Lower(PyStr.Strip(searchCoin)), b)
        case Ok(o) => Ok(Some(o))
        case Err(e) => Err(e)
  }

  // ---------------------------------------------------------------------
  // Threshold filter and scan
  // ---------------------------------------------------------------------

  /** The `_process_page` test: a parsed APR that is present and strictly above `threshold`. */
  predicate AboveThreshold(item: Json, threshold: real, b: Builtins) {
    item.JObj? && var apr := SortAprPercent(item.fields, b); apr.Some? && apr.value > threshold
  }

  predicate AllObjects(items: seq<Json>) {
    forall i :: 0 <= i < |items| ==> items[i].JObj?
  }

  /** The records passing the threshold test, in their original order. */
  function FilterAbove(items: seq<Json>, threshold: real, b: Builtins): (r: seq<Json>)
    ensures |r| <= |items|
    ensures forall x :: x in r <==> x in items && AboveThreshold(x, threshold, b)
  {
    if |items| == 0 then []
    else
      var rest := FilterAbove(items[1..], threshold, b);
      assert forall x :: x in items <==> x == items[0] || x in items[1..];
      (if AboveThreshold(items[0], threshold, b) then [items[0]] else []) + rest
  }

  /** The filter is a homomorphism on concatenation: it keeps records in order. */
  lemma {:induction false} FilterAboveAppend(a: seq<Json>, c: seq<Json>, threshold: real, b: Builtins)
    ensures FilterAbove(a + c, threshold, b) == FilterAbove(a, threshold, b) + FilterAbove(c, threshold, b)
  {
    if |a| == 0 {
      assert a + c == c;
    } else {
      assert (a + c)[1..] == a[1..] + c;
      FilterAboveAppend(a[1..], c, threshold, b);
    }
  }

  /**
   * `_process_page` applied to the page's payload: the records whose parsed
   * APR is strictly above `threshold`, in order; a payload or record that is
   * not an object makes the page raise.
   */
  function ProcessPage(payload: Json, threshold: real, b: Builtins): (r: Result<seq<Json>, FetchError>)
    ensures r.Ok? <==> payload.JObj? && AllObjects(ExtractProjects(payload.fields))
    ensures r.Ok? ==> r.value == FilterAbove(ExtractProjects(payload.fields), threshold, b)
    ensures r.Ok? ==> forall x :: x in r.value ==> SortAprPercent(x.fields, b).Some? && SortAprPercent(x.fields, b).value > threshold
  {
    if !payload.JObj? then Err(AttributeError)
    else
      var items := ExtractProjects(payload.fields);
      if AllObjects(items) then Ok(FilterAbove(items, threshold, b)) else Err(AttributeError)
  }

  /** The outcome of `_fetch_page` for one page, after its retries. */
  datatype PageOutcome = PageFetched(payload: Json) | PageRaised

  /** What one page contributes to the scan: its matches, or nothing if it raised anywhere. */
  function PageMatches(o: PageOutcome, threshold: real, b: Builtins): seq<Json> {
    match o
    case PageRaised => []
    case PageFetched(p) =>
      match ProcessPage(p, threshold, b)
      case Ok(m) => m
      case Err(_) => []
  }

  /** The merge loop of `fetch_projects_with_apr_gt`, folding the page outcomes in page order. */
  function MergePages(pages: seq<PageOutcome>, threshold: real, b: Builtins): (r: seq<Json>)
    ensures forall x :: x in r ==> AboveThreshold(x, threshold, b)
  {
    if |pages| == 0 then []
    else PageMatches(pages[0], threshold, b) + MergePages(pages[1..], threshold, b)
  }

  lemma {:induction false} MergePagesAppend(p: seq<PageOutcome>, q: seq<PageOutcome>, threshold: real, b: Builtins)
    ensures MergePages(p + q, threshold, b) == MergePages(p, threshold, b) + MergePages(q, threshold, b)
  {
    if |p| == 0 {
      assert p + q == q;
    } else {
      assert (p + q)[1..] == p[1..] + q;
      MergePagesAppend(p[1..], q, threshold, b);
    }
  }

  /**
   * A page that raised contributes nothing and does not stop the scan: the
   * merge over all pages is the merge over the others.
   */
  lemma FailedPageContributesNothing(p: seq<PageOutcome>, q: seq<PageOutcome>, threshold: real, b: Builtins)
    ensures MergePages(p + [PageRaised] + q, threshold, b) == MergePages(p + q, threshold, b)
  {
    MergePagesAppend(p + [PageRaised], q, threshold, b);
    MergePagesAppend(p, [PageRaised], threshold, b);
    MergePagesAppend(p, q, threshold, b);
  }

  /** A record is in the scan result iff some page contributed it. */
  lemma {:induction false} MergePagesMembership(pages: seq<PageOutcome>, threshold: real, b: Builtins, x: Json)
    ensures x in MergePages(pages, threshold, b) <==>
      exists i :: 0 <= i < |pages| && x in PageMatches(pages[i], threshold, b)
  {
    if |pages| > 0 {
      MergePagesMembership(pages[1..], threshold, b, x);
      if x in MergePages(pages[1..], threshold, b) {
        var i :| 0 <= i < |pages[1..]| && x in PageMatches(pages[1..][i], threshold, b);
        assert pages[i + 1] == pages[1..][i];
      }
      if exists i :: 0 <= i < |pages| && x in PageMatches(pages[i], threshold, b) {
        var i :| 0 <= i < |pages| && x in PageMatches(pages[i], threshold, b);
        if i > 0 {
          assert pages[1..][i - 1] == pages[i];
        }
      }
    }
  }

  /**
   * Pages complete in any order: merging the same page outcomes in another
   * order yields the same records with the same multiplicities.
   */
  lemma {:induction false} MergePagesOrderIrrelevant(p: seq<PageOutcome>, q: seq<PageOutcome>, threshold: real, b: Builtins)
    requires multiset(p) == multiset(q)
    ensures multiset(MergePages(p, threshold, b)) == multiset(MergePages(q, threshold, b))
  {
    if |p| > 0 {
      var x := p[0];
      assert x in multiset(q);
      var k :| 0 <= k < |q| && q[k] == x;
      var q' := q[..k] + q[k + 1..];
      MultisetRemoveAt(q, k);
      MultisetRemoveAt(p, 0);
      assert p[..0] + p[1..] == p[1..];
      MergePagesOrderIrrelevant(p[1..], q', threshold, b);
      MergePagesRemoveAt(q, k, threshold, b);
      assert MergePages(p, threshold, b) == PageMatches(x, threshold, b) + MergePages(p[1..], threshold, b);
    } else {
      assert q == [];
    }
  }

  /** Taking one element out of a sequence takes it out of its multiset. */
  lemma MultisetRemoveAt<T>(q: seq<T>, k: nat)
    requires k < |q|
    ensures multiset(q[..k] + q[k + 1..]) == multiset(q) - multiset{q[k]}
  {
    assert q == q[..k] + [q[k]] + q[k + 1..];
  }

  /** The merge over all pages is the matches of one page plus the merge over the others. */
  lemma MergePagesRemoveAt(q: seq<PageOutcome>, k: nat, threshold: real, b: Builtins)
    requires k < |q|
    ensures multiset(MergePages(q, threshold, b))
         == multiset(PageMatches(q[k], threshold, b)) + multiset(MergePages(q[..k] + q[k + 1..], threshold, b))
  {
    assert q == (q[..k] + [q[k]]) + q[k + 1..];
    MergePagesAppend(q[..k] + [q[k]], q[k + 1..], threshold, b);
    MergePagesAppend(q[..k], [q[k]], threshold, b);
    MergePagesAppend(q[..k], q[k + 1..], threshold, b);
    assert MergePages([q[k]], threshold, b) == PageMatches(q[k], threshold, b) + MergePages([], threshold, b);
  }

  /** The result of `fetch_projects_with_apr_gt` and the cache it leaves behind. */
  datatype ScanResult = ScanResult(items: seq<Json>, cache: ProjectCache, scanned: bool)

  /**
   * `fetch_projects_with_apr_gt(threshold, force_refresh)`: unless
   * `forceRefresh`, a non-empty cached list at most `ScanCacheTtl` seconds
   * old (read at `now`) is returned without a scan; an empty cached list
   * counts as a miss. Otherwise every page is fetched (outcomes in `pages`),
   * the matches of the pages that succeeded are merged, and the merged list is
   * stored under `threshold`, stamped `storedAt`.
   */
  function FetchProjectsWithAprGt(cache: ProjectCache, threshold: real, forceRefresh: bool, now: real,
                                  pages: seq<PageOutcome>, storedAt: real, b: Builtins): (r: ScanResult)
    ensures !r.scanned <==>
      !forceRefresh && threshold in cache && !IsExpired(cache[threshold], ScanCacheTtl, now)
      && |cache[threshold].data| > 0
    ensures !r.scanned ==> r.items == cache[threshold].data && r.cache == cache
    ensures r.scanned ==> r.items == MergePages(pages, threshold, b)
    ensures r.scanned ==> r.cache == CacheSet(cache, threshold, r.items, storedAt)
    ensures r.scanned ==> forall ttl :: ttl >= 0.0 ==> CacheGet(r.cache, threshold, ttl, storedAt) == Some(r.items)
    ensures r.scanned ==> forall t, ttl, at :: t != threshold ==> CacheGet(r.cache, t, ttl, at) == CacheGet(cache, t, ttl, at)
  {
    var cached := if forceRefresh then None else CacheGet(cache, threshold, ScanCacheTtl, now);
    if cached.Some? && |cached.value| > 0 then ScanResult(cached.value, cache, false)
    else
      var results := MergePages(pages, threshold, b);
      ScanResult(results, CacheSet(cache, threshold, results, storedAt), true)
  }
}

=== FILE: pystr.dfy ===
/**
 * The few Python `str` operations the bot relies on: `strip()`, `split(",")`,
 * `replace(old, new)` with a one-character `old`, and `lower()`/`upper()`.
 */
module PyStr {

  /** `str.isspace()` for one character: Python's whitespace set. */
  predicate IsSpace(c: char) {
    || c == ' ' || c == '\t' || c == '\n' || c == '\r' || c == '\U{B}' || c == '\U{C}'
    || '\U{1C}' <= c <= '\U{1F}'
    || c == '\U{85}' || c == '\U{A0}' || c == '\U{1680}'
    || '\U{2000}' <= c <= '\U{200A}'
    || c == '\U{2028}' || c == '\U{2029}' || c == '\U{202F}' || c == '\U{205F}' || c == '\U{3000}'
  }

  /** `s` without its leading whitespace: a suffix of `s`, only whitespace removed. */
  function TrimStart(s: string): (r: string)
    ensures |r| <= |s| && r == s[|s| - |r|..]
    ensures forall k :: 0 <= k < |s| - |r| ==> IsSpace(s[k])
    ensures |r| > 0 ==> !IsSpace(r[0])
  {
    if |s| > 0 && IsSpace(s[0]) then
      var r := TrimStart(s[1..]);
      assert forall k :: 1 <= k < |s| - |r| ==> s[k] == s[1..][k - 1];
      r
    else s
  }

  /** `s` without its trailing whitespace: a prefix of `s`, only whitespace removed. */
  function TrimEnd(s: string): (r: string)
    ensures |r| <= |s| && r == s[..|r|]
    ensures forall k :: |r| <= k < |s| ==> IsSpace(s[k])
    ensures |r| > 0 ==> !IsSpace(r[|r| - 1])
  {
    if |s| > 0 && IsSpace(s[|s| - 1]) then
      var r := TrimEnd(s[..|s| - 1]);
      assert forall k :: |r| <= k < |s| - 1 ==> s[k] == s[..|s| - 1][k];
      r
    else s
  }

  /**
   * `str.strip()`: `s` with its surrounding whitespace removed; what is left
   * neither starts nor ends with whitespace, and it is empty exactly when `s`
   * is blank.
   */
  function Strip(s: string): (r: string)
    ensures |r| <= |s| && forall c :: c in r ==> c in s
    ensures |r| > 0 ==> !IsSpace(r[0]) && !IsSpace(r[|r| - 1])
    ensures r == [] <==> forall k :: 0 <= k < |s| ==> IsSpace(s[k])
  {
    TrimBothFromInput(s);
    TrimBothEnds(s);
    TrimBothBlank(s);
    TrimEnd(TrimStart(s))
  }

  /** Both trims together keep only characters of the input. */
  lemma TrimBothFromInput(s: string)
    ensures var r := TrimEnd(TrimStart(s)); |r| <= |s| && forall c :: c in r ==> c in s
  {
    var t := TrimStart(s);
    var r := TrimEnd(t);
    assert r == t[0..|r|];
    SliceMembers(t, 0, |r|);
    assert t == s[|s| - |t|..|s|];
    SliceMembers(s, |s| - |t|, |s|);
  }

  /** A slice of `s` has only characters of `s`. */
  lemma SliceMembers(s: string, i: nat, j: nat)
    requires i <= j <= |s|
    ensures forall c :: c in s[i..j] ==> c in s
  {
    forall c | c in s[i..j] ensures c in s {
      var k :| 0 <= k < j - i && s[i..j][k] == c;
      assert s[i + k] == c;
    }
  }

  /** Both trims together leave no whitespace at either end. */
  lemma TrimBothEnds(s: string)
    ensures var r := TrimEnd(TrimStart(s)); |r| > 0 ==> !IsSpace(r[0]) && !IsSpace(r[|r| - 1])
  {
    var t := TrimStart(s);
    var r := TrimEnd(t);
    if |r| > 0 {
      assert r[0] == t[0];
    }
  }

  /** Both trims together leave nothing exactly when the input is blank. */
  lemma TrimBothBlank(s: string)
    ensures TrimEnd(TrimStart(s)) == [] <==> forall k :: 0 <= k < |s| ==> IsSpace(s[k])
  {
    var t := TrimStart(s);
    var r := TrimEnd(t);
    var i := |s| - |t|;
    if r != [] {
      assert r[0] == t[0] == s[i];
    }
  }

  /**
   * What `strip()` keeps is one contiguous stretch of `s`: everything before
   * it and everything after it is whitespace.
   */
  lemma StripIsTrimmedInfix(s: string) returns (i: nat)
    ensures var r := Strip(s);
      && i <= |s| - |r| && r == s[i..i + |r|]
      && (forall k :: 0 <= k < i ==> IsSpace(s[k]))
      && (forall k :: i + |r| <= k < |s| ==> IsSpace(s[k]))
  {
    var t := TrimStart(s);
    var r := TrimEnd(t);
    i := |s| - |t|;
    assert Strip(s) == r;
    assert r == s[i..i + |r|];
    forall k | i + |r| <= k < |s| ensures IsSpace(s[k]) {
      assert s[k] == t[k - i];
    }
  }

  /** First index of `c` in `s`; `s` must contain it. */
  function IndexOf(s: string, c: char): (i: nat)
    requires c in s
    ensures i < |s| && s[i] == c && c !in s[..i]
  {
    if s[0] == c then 0
    else
      assert c in s[1..] by {
        var k :| 0 <= k < |s| && s[k] == c;
        assert s[1..][k - 1] == c;
      }
      var i := 1 + IndexOf(s[1..], c);
      assert s[..i] == [s[0]] + s[1..][..i - 1];
      i
  }

  /** Inverse of `Split`: the pieces glued back together with `sep`. */
  function Join(pieces: seq<string>, sep: char): string
    requires |pieces| >= 1
  {
    if |pieces| == 1 then pieces[0] else pieces[0] + [sep] + Join(pieces[1..], sep)
  }

  /**
   * `s.split(sep)` for a one-character separator: never empty, no piece
   * contains the separator, and joining the pieces gives `s` back.
   */
  function Split(s: string, sep: char): (r: seq<string>)
    ensures |r| >= 1
    ensures forall i :: 0 <= i < |r| ==> sep !in r[i]
    ensures Join(r, sep) == s
    ensures sep !in s ==> r == [s]
    decreases |s|
  {
    if sep !in s then [s]
    else
      var i := IndexOf(s, sep);
      var rest := Split(s[i + 1..], sep);
      assert s == s[..i] + [sep] + s[i + 1..];
      [s[..i]] + rest
  }

  /** `s.replace(pat, rep)` for a one-character `pat`. */
  function Replace(s: string, pat: char, rep: string): (r: string)
    ensures pat !in rep ==> pat !in r
    ensures forall c :: c in r ==> c in s || c in rep
    ensures |rep| <= 1 ==> |r| <= |s|
  {
    if |s| == 0 then []
    else (if s[0] == pat then rep else [s[0]]) + Replace(s[1..], pat, rep)
  }

  lemma {:induction false} ReplaceAppend(a: string, b: string, pat: char, rep: string)
    ensures Replace(a + b, pat, rep) == Replace(a, pat, rep) + Replace(b, pat, rep)
  {
    if |a| == 0 {
      assert a + b == b;
    } else {
      assert (a + b)[1..] == a[1..] + b;
      ReplaceAppend(a[1..], b, pat, rep);
    }
  }

  predicate IsAsciiUpper(c: char) { 'A' <= c <= 'Z' }
  predicate IsAsciiLower(c: char) { 'a' <= c <= 'z' }

  function LowerChar(c: char): char {
    if IsAsciiUpper(c) then (c as int + 32) as char else c
  }

  function UpperChar(c: char): char {
    if IsAsciiLower(c) then (c as int - 32) as char else c
  }

  /** `str.lower()` restricted to the ASCII letters: no upper-case letter survives. */
  function Lower(s: string): (r: string)
    ensures |r| == |s|
    ensures forall k :: 0 <= k < |s| ==> r[k] == LowerChar(s[k])
    ensures forall k :: 0 <= k < |r| ==> !IsAsciiUpper(r[k])
  {
    seq(|s|, k requires 0 <= k < |s| => LowerChar(s[k]))
  }

  /** `str.upper()` restricted to the ASCII letters. */
  function Upper(s: string): (r: string)
    ensures |r| == |s|
    ensures forall k :: 0 <= k < |r| ==> !IsAsciiLower(r[k])
    ensures forall k :: 0 <= k < |s| && !IsAsciiLower(s[k]) ==> r[k] == s[k]
    ensures Lower(r) == Lower(s)
  {
    seq(|s|, k requires 0 <= k < |s| => UpperChar(s[k]))
  }

  /** Lower-casing is idempotent: a lower-cased string is its own lower case. */
  lemma LowerIdempotent(s: string)
    ensures Lower(Lower(s)) == Lower(s)
  {
  }
}

=== FILE: ticker_lookup.dfy ===
/**
 * A plain-text message taken as a ticker: validation of the lower-cased
 * text, then the subscription it creates, with the placeholder status when
 * the lookup fails.
 */
module TickerLookup {
  import opened Wrappers
  import opened Json
  import opened Models
  import opened Database
  import opened WatchRegistry
  import Monitor
  import PyStr

  /** The longest ticker accepted. */
  const MaxTickerLength: nat := 10

  /** The status stored when the lookup raised or found nothing. */
  const NoData: string := "no_data"

  /** A character of the Cyrillic block, U+0400 to U+04FF. */
  predicate IsCyrillic(ch: char) {
    '\U{0400}' <= ch <= '\U{04FF}'
  }

  /** `str.isalnum()`, given the per-character Unicode test: non-empty and every character alphanumeric. */
  predicate IsAlnum(s: string, alnum: char -> bool) {
    |s| > 0 && forall i :: 0 <= i < |s| ==> alnum(s[i])
  }

  /** The three rejections, in the order the code checks them, and acceptance of the lower-cased ticker. */
  datatype Verdict = TooLong | NotAlphanumeric | NotLatin | Accepted(coin: string)

  /**
   * The ticker checks on `clean.lower()`: longer than ten characters; a
   * space or a character that is not alphanumeric; a Cyrillic character.
   */
  function ValidateTicker(clean: string, alnum: char -> bool): (v: Verdict)
    ensures v == TooLong <==> |clean| > MaxTickerLength
    ensures v == NotAlphanumeric <==>
      |clean| <= MaxTickerLength && (' ' in PyStr.Lower(clean) || !IsAlnum(PyStr.Lower(clean), alnum))
    ensures v.Accepted? ==> v.coin == PyStr.Lower(clean)
    ensures v.Accepted? <==>
      var coin := PyStr.Lower(clean);
      && 0 < |clean| <= MaxTickerLength
      && (forall i :: 0 <= i < |coin| ==> coin[i] != ' ' && alnum(coin[i]) && !IsCyrillic(coin[i]))
  {
    var coin := PyStr.Lower(clean);
    if |coin| > MaxTickerLength then TooLong
    else if ' ' in coin || !IsAlnum(coin, alnum) then NotAlphanumeric
    else if exists i :: 0 <= i < |coin| && IsCyrillic(coin[i]) then NotLatin
    else Accepted(coin)
  }

  /** Python counts Cyrillic letters as alphanumeric, so they reach the third test and only it rejects them. */
  lemma CyrillicIsRejectedLast(clean: string, alnum: char -> bool)
    requires 0 < |clean| <= MaxTickerLength
    requires forall i :: 0 <= i < |clean| ==> IsCyrillic(clean[i]) && alnum(PyStr.Lower(clean)[i])
    ensures ValidateTicker(clean, alnum) == NotLatin
  {
    var coin := PyStr.Lower(clean);
    assert coin[0] == clean[0];
    assert ' ' !in coin by {
      forall i | 0 <= i < |coin| ensures coin[i] != ' ' {
        assert coin[i] == clean[i];
      }
    }
  }

  /** The replies to a ticker: a rejection, or a subscription with or without data. */
  datatype Reply = Rejected(verdict: Verdict) | SubscribedWithoutData(coin: string) | Subscribed(view: Display)

  /**
   * The ticker branch of the text handler: a rejected ticker changes
   * nothing; otherwise the chat subscribes and watches the coin, stored with
   * the placeholder when `fetch_token_info` raised or came back empty.
   */
  function HandleTicker(st: BotState, chat: ChatId, clean: string, fetched: Monitor.FetchOutcome,
                        alnum: char -> bool, b: Builtins): (r: (BotState, Reply))
    ensures !ValidateTicker(clean, alnum).Accepted? ==> r == (st, Rejected(ValidateTicker(clean, alnum)))
    ensures ValidateTicker(clean, alnum).Accepted? ==>
      var coin := ValidateTicker(clean, alnum).coin;
      && chat in r.0.subscribers && chat in r.0.db.subscribers
      && Current(r.0, chat, coin) == Some(if Monitor.Succeeded(fetched)
                                           then ToString(FromApiResponse(fetched.info.value, fetched.at, b))
                                           else Text(NoData))
      && (forall c, k :: (c, k) != (chat, coin) ==> Current(r.0, c, k) == Current(st, c, k))
      && r.1 == (if Monitor.Succeeded(fetched)
                 then Subscribed(FormatForUser(FromApiResponse(fetched.info.value, fetched.at, b)))
                 else SubscribedWithoutData(coin))
    ensures ValidateTicker(clean, alnum).Accepted? ==>
      var coin := ValidateTicker(clean, alnum).coin;
      && r.0.subscribers == st.subscribers + {chat}
      && r.0.db.subscribers == Database.AddSubscriber(st.db, chat).0.subscribers
      && r.0.db.watches == Database.AddWatch(st.db, chat, coin, Current(r.0, chat, coin).value).watches
      && SameCounters(st, r.0)
    ensures Mirrors(st) ==> Mirrors(r.0)
  {
    match ValidateTicker(clean, alnum)
    case Accepted(coin) =>
      var st1 := WatchRegistry.AddSubscriber(st, chat);
      if Monitor.Succeeded(fetched) then
        var status := FromApiResponse(fetched.info.value, fetched.at, b);
        (SetWatch(st1, chat, coin, ToString(status)), Subscribed(FormatForUser(status)))
      else
        (SetWatch(st1, chat, coin, Text(NoData)), SubscribedWithoutData(coin))
    case v => (st, Rejected(v))
  }

  /**
   * The placeholder reaches the monitor: once a lookup has failed, the next
   * pass that fetches that coin successfully raises out of `_check_once` as
   * written, while the corrected pass announces the status.
   */
  lemma FailedLookupBreaksNextPass(st: BotState, chat: ChatId, clean: string, alnum: char -> bool, b: Builtins,
                                   info: Object, at: Timestamp)
    requires ValidateTicker(clean, alnum).Accepted?
    requires !IsPaused(st.db, chat)
    requires info != map[]
    ensures var coin := ValidateTicker(clean, alnum).coin;
      var after := HandleTicker(st, chat, clean, Monitor.FetchRaised, alnum, b).0;
      var c := Monitor.Check(chat, coin, Monitor.FetchReturned(Some(info), at));
      && Monitor.CheckOnceAsWritten(after, [c], b).Err?
      && |Monitor.CheckOnce(after, [c], b).out| > 0
      && Monitor.CheckOnce(after, [c], b).out[0] == Monitor.ChangeNotice(chat, coin, FromApiResponse(info, at, b))
  {
    var coin := ValidateTicker(clean, alnum).coin;
    var after := HandleTicker(st, chat, clean, Monitor.FetchRaised, alnum, b).0;
    var c := Monitor.Check(chat, coin, Monitor.FetchReturned(Some(info), at));
    assert !IsPaused(after.db, chat);
    Monitor.PlaceholderAbortsPass(after, c, b);
    var p := Monitor.Pass(after, [], false);
    Monitor.FirstCheckAnnounces(p, c, b);
    assert Monitor.Run(p, [c], b) == Monitor.Step(p, c, b);
    assert Monitor.Finish(Monitor.Step(p, c, b)).out[..1] == Monitor.Step(p, c, b).out;
  }
}

=== FILE: utils.dfy ===
/**
 * The request-safety utilities: the rate limiter as a single-caller clock
 * model, and the retry-with-backoff policy over a given sequence of attempt
 * outcomes. Sleeping is recorded, never performed.
 */
module Utils {
  import opened Wrappers

  // ---------------------------------------------------------------------
  // RateLimiter
  // ---------------------------------------------------------------------

  /** `RateLimiter`: the minimum gap between requests and the last request's clock reading. */
  datatype RateLimiter = RateLimiter(minInterval: real, lastRequest: real)

  /** `RateLimiter(min_interval)`: no request yet, so the last one is stamped 0. */
  function NewRateLimiter(minInterval: real): (l: RateLimiter)
    ensures l.minInterval == minInterval && l.lastRequest == 0.0
  {
    RateLimiter(minInterval, 0.0)
  }

  /** How long `wait_if_needed` sleeps when the lock is taken at clock reading `now`. */
  function SleepFor(l: RateLimiter, now: real): (d: real)
    ensures d >= 0.0
    ensures d > 0.0 <==> now - l.lastRequest < l.minInterval
    ensures now + d >= l.lastRequest + l.minInterval
    ensures d > 0.0 ==> now + d == l.lastRequest + l.minInterval
  {
    var elapsed := now - l.lastRequest;
    if elapsed < l.minInterval then l.minInterval - elapsed else 0.0
  }

  datatype Waited = Waited(limiter: RateLimiter, slept: real)

  /**
   * One `wait_if_needed` call: the clock reads `now`, the caller sleeps if
   * the previous request is too recent, and the clock then reads `woke`,
   * which a sleep never makes earlier than `now` plus the sleep. The new
   * stamp is at least `minInterval` after the previous one.
   */
  function WaitIfNeeded(l: RateLimiter, now: real, woke: real): (w: Waited)
    requires woke >= now + SleepFor(l, now)
    ensures w.limiter == RateLimiter(l.minInterval, woke)
    ensures w.limiter.lastRequest - l.lastRequest >= l.minInterval
    ensures w.slept >= 0.0 && (w.slept > 0.0 <==> now - l.lastRequest < l.minInterval)
  {
    Waited(RateLimiter(l.minInterval, woke), SleepFor(l, now))
  }

  /** One caller's clock readings for one call: when it asks, and how far past the requested sleep it wakes. */
  datatype Reading = Reading(now: real, overslept: real)

  predicate ValidReadings(rs: seq<Reading>) {
    forall i :: 0 <= i < |rs| ==> rs[i].overslept >= 0.0
  }

  /**
   * The request stamps of successive `wait_if_needed` calls from a single
   * caller: each is at least `minInterval` after the one before it, and the
   * first is at least `minInterval` after the limiter's previous stamp.
   */
  function Stamps(l: RateLimiter, rs: seq<Reading>): (r: seq<real>)
    requires ValidReadings(rs)
    ensures |r| == |rs|
    ensures |r| > 0 ==> r[0] >= l.lastRequest + l.minInterval
    ensures forall i :: 0 <= i < |r| - 1 ==> r[i + 1] - r[i] >= l.minInterval
    decreases |rs|
  {
    if |rs| == 0 then []
    else
      var woke := rs[0].now + SleepFor(l, rs[0].now) + rs[0].overslept;
      var w := WaitIfNeeded(l, rs[0].now, woke);
      [woke] + Stamps(w.limiter, rs[1..])
  }

  /** `n` calls span at least `(n - 1) * minInterval` seconds. */
  lemma {:induction false} StampsSpan(l: RateLimiter, rs: seq<Reading>)
    requires ValidReadings(rs) && |rs| > 0
    ensures var r := Stamps(l, rs); r[|r| - 1] - r[0] >= (|rs| - 1) as real * l.minInterval
    decreases |rs|
  {
    var r := Stamps(l, rs);
    if |rs| > 1 {
      var woke := rs[0].now + SleepFor(l, rs[0].now) + rs[0].overslept;
      var l' := RateLimiter(l.minInterval, woke);
      StampsSpan(l', rs[1..]);
      var r' := Stamps(l', rs[1..]);
      assert r == [woke] + r';
      assert r'[0] - woke >= l.minInterval;
    }
  }

  // ---------------------------------------------------------------------
  // retry_with_backoff
  // ---------------------------------------------------------------------

  /** What one call of the wrapped function did. */
  datatype Attempt<T> =
    | Returned(value: T)
    | HttpError(code: int)   // urllib.error.HTTPError
    | NetworkError           // URLError, TimeoutError, ConnectionError
    | OtherError             // any other exception: not caught by the policy

  /**
   * The exception the policy lets escape. `RaisedNone` is the `TypeError` of
   * `raise None` when the loop never ran (`max_attempts < 1`).
   */
  datatype Failure = HttpFailure(code: int) | NetworkFailure | OtherFailure | RaisedNone

  /** The value or exception of the call, the sleeps taken in order, and how many times the function was called. */
  datatype RetryRun<T> = RetryRun(result: Result<T, Failure>, sleeps: seq<real>, calls: nat)

  /** The fixed pause after a 429 response, in seconds. */
  const RateLimitedDelay: real := 60.0

  function Pow2(n: nat): (p: nat)
    ensures p >= 1
  {
    if n == 0 then 1 else 2 * Pow2(n - 1)
  }

  /** `min(base_delay * 2 ** (attempt - 1), max_delay)`. */
  function Backoff(attempt: nat, baseDelay: real, maxDelay: real): (d: real)
    requires attempt >= 1
    ensures d <= maxDelay
    ensures d <= baseDelay * Pow2(attempt - 1) as real
    ensures d == maxDelay || d == baseDelay * Pow2(attempt - 1) as real
  {
    var exp := baseDelay * Pow2(attempt - 1) as real;
    if exp <= maxDelay then exp else maxDelay
  }

  predicate IsServerError(code: int) {
    500 <= code < 600
  }

  /** The outcomes the policy retries: 429, 5xx and network errors. */
  predicate Retryable<T>(a: Attempt<T>) {
    a.NetworkError? || (a.HttpError? && (a.code == 429 || IsServerError(a.code)))
  }

  /** The pause after a retryable failure on attempt `attempt` (counting from 1). */
  function DelayAfter<T>(a: Attempt<T>, attempt: nat, baseDelay: real, maxDelay: real): real
    requires Retryable(a) && attempt >= 1
  {
    if a.HttpError? && a.code == 429 then RateLimitedDelay else Backoff(attempt, baseDelay, maxDelay)
  }

  /** The exception a failed attempt raises. */
  function FailureOf<T>(a: Attempt<T>): Failure
    requires !a.Returned?
  {
    match a
    case HttpError(code) => HttpFailure(code)
    case NetworkError => NetworkFailure
    case OtherError => OtherFailure
  }

  /**
   * The complete behaviour of `retry_with_backoff` for the outcomes of
   * successive calls: at most `maxAttempts` calls; every call but the last
   * failed retryably and was followed by exactly its pause; the last call's
   * value is returned or its exception raised; and the policy stops before
   * `maxAttempts` only on a return or a non-retryable failure. With no
   * attempts allowed nothing is called and `raise None` fails.
   */
  predicate RetryContract<T(==)>(outcomes: seq<Attempt<T>>, maxAttempts: int, baseDelay: real, maxDelay: real, r: RetryRun<T>)
    requires maxAttempts <= |outcomes|
  {
    if maxAttempts < 1 then r == RetryRun(Err(RaisedNone), [], 0)
    else
      && 1 <= r.calls <= maxAttempts
      && |r.sleeps| == r.calls - 1
      && (forall k :: 0 <= k < r.calls - 1 ==>
            Retryable(outcomes[k]) && r.sleeps[k] == DelayAfter(outcomes[k], k + 1, baseDelay, maxDelay))
      && var last := outcomes[r.calls - 1];
         && (last.Returned? ==> r.result == Ok(last.value))
         && (!last.Returned? ==> r.result == Err(FailureOf(last)))
         && (Retryable(last) ==> r.calls == maxAttempts)
  }

  /**
   * `retry_with_backoff(func, max_attempts, base_delay, max_delay)`, where
   * `outcomes[k]` is what the `k+1`-th call of `func` does.
   */
  method RetryWithBackoff<T(==)>(outcomes: seq<Attempt<T>>, maxAttempts: int, baseDelay: real, maxDelay: real)
    returns (run: RetryRun<T>)
    requires maxAttempts <= |outcomes|
    ensures RetryContract(outcomes, maxAttempts, baseDelay, maxDelay, run)
  {
    var last := RaisedNone;
    var sleeps: seq<real> := [];
    var attempt := 1;
    while attempt <= maxAttempts
      invariant 1 <= attempt
      invariant attempt <= if maxAttempts >= 1 then maxAttempts + 1 else 1
      invariant attempt <= maxAttempts ==> |sleeps| == attempt - 1
      invariant maxAttempts >= 1 && attempt == maxAttempts + 1 ==> |sleeps| == maxAttempts - 1
      invariant maxAttempts < 1 ==> sleeps == []
      invariant forall k :: 0 <= k < attempt - 1 ==> Retryable(outcomes[k])
      invariant forall k :: 0 <= k < |sleeps| ==> sleeps[k] == DelayAfter(outcomes[k], k + 1, baseDelay, maxDelay)
      invariant attempt >= 2 ==> last == FailureOf(outcomes[attempt - 2])
      invariant attempt == 1 ==> last == RaisedNone
    {
      var a := outcomes[attempt - 1];
      var delay: real;
      match a {
        case Returned(v) =>
          return RetryRun(Ok(v), sleeps, attempt);
        case OtherError =>
          return RetryRun(Err(OtherFailure), sleeps, attempt);
        case HttpError(code) =>
          last := HttpFailure(code);
          if code == 429 {
            delay := RateLimitedDelay;
          } else if 500 <= code < 600 {
            delay := Backoff(attempt, baseDelay, maxDelay);
          } else {
            return RetryRun(Err(last), sleeps, attempt);
          }
        case NetworkError =>
          last := NetworkFailure;
          delay := Backoff(attempt, baseDelay, maxDelay);
      }
      if attempt < maxAttempts {
        sleeps := sleeps + [delay];
      }
      attempt := attempt + 1;
    }
    run := RetryRun(Err(last), sleeps, attempt - 1);
  }

  /** The contract pins the run down: at most one run satisfies it. */
  lemma RetryContractDeterminesRun<T>(outcomes: seq<Attempt<T>>, maxAttempts: int, baseDelay: real, maxDelay: real,
                                      r1: RetryRun<T>, r2: RetryRun<T>)
    requires maxAttempts <= |outcomes|
    requires RetryContract(outcomes, maxAttempts, baseDelay, maxDelay, r1)
    requires RetryContract(outcomes, maxAttempts, baseDelay, maxDelay, r2)
    ensures r1 == r2
  {
    if maxAttempts >= 1 {
      assert r1.calls == r2.calls;
      assert r1.sleeps == r2.sleeps;
    }
  }

  /**
   * A non-retryable HTTP status (not 429, not 5xx) on the first call is
   * raised at once: one call, no sleep.
   */
  lemma ClientErrorIsNotRetried<T>(outcomes: seq<Attempt<T>>, maxAttempts: int, baseDelay: real, maxDelay: real, r: RetryRun<T>)
    requires 1 <= maxAttempts <= |outcomes|
    requires outcomes[0].HttpError? && outcomes[0].code != 429 && !IsServerError(outcomes[0].code)
    requires RetryContract(outcomes, maxAttempts, baseDelay, maxDelay, r)
    ensures r == RetryRun(Err(HttpFailure(outcomes[0].code)), [], 1)
  {
  }

  /**
   * Server errors on the first `k - 1` calls and a value on call `k`: the
   * value is returned after the pauses `min(base * 2^(j-1), max)`, j < k.
   */
  lemma ServerErrorsThenSuccess<T>(outcomes: seq<Attempt<T>>, maxAttempts: int, baseDelay: real, maxDelay: real,
                                   k: nat, r: RetryRun<T>)
    requires 1 <= k <= maxAttempts <= |outcomes|
    requires forall j :: 0 <= j < k - 1 ==> outcomes[j].HttpError? && IsServerError(outcomes[j].code)
    requires outcomes[k - 1].Returned?
    requires RetryContract(outcomes, maxAttempts, baseDelay, maxDelay, r)
    ensures r.result == Ok(outcomes[k - 1].value) && r.calls == k
    ensures |r.sleeps| == k - 1 && forall j :: 0 <= j < k - 1 ==> r.sleeps[j] == Backoff(j + 1, baseDelay, maxDelay)
  {
  }

  /** Once all attempts fail retryably, the last attempt's exception is raised, after `maxAttempts - 1` pauses. */
  lemma ExhaustedRaisesLast<T>(outcomes: seq<Attempt<T>>, maxAttempts: int, baseDelay: real, maxDelay: real, r: RetryRun<T>)
    requires 1 <= maxAttempts <= |outcomes|
    requires forall j :: 0 <= j < maxAttempts ==> Retryable(outcomes[j])
    requires RetryContract(outcomes, maxAttempts, baseDelay, maxDelay, r)
    ensures r.calls == maxAttempts && |r.sleeps| == maxAttempts - 1
    ensures r.result == Err(FailureOf(outcomes[maxAttempts - 1]))
  {
  }
}

=== FILE: watch_registry.dfy ===
/**
 * `BotState`: the in-memory subscriber set and watch registry, kept in step
 * with the store it writes through to, plus the failure counters and alert
 * flags of the monitor.
 */
module WatchRegistry {
  import opened Wrappers
  import opened Models
  import opened Database

  /**
   * `db` is the store; `subscribers` and `watch` (chat -> coin -> stored
   * status) are the memory copies; the rest is failure bookkeeping.
   */
  datatype BotState = BotState(
    db: Store,
    subscribers: set<ChatId>,
    watch: map<ChatId, map<Coin, Stored>>,
    globalFailures: nat,
    globalAlerted: bool,
    coinFailures: map<Coin, nat>,
    coinAlerted: set<Coin>)

  /** `self.watch.get(chat, {}).get(coin)`. */
  function Current(st: BotState, chat: ChatId, coin: Coin): Option<Stored> {
    if chat in st.watch && coin in st.watch[chat] then Some(st.watch[chat][coin]) else None
  }

  /** `self.watch.get(chat, {})`. */
  function CoinsOf(st: BotState, chat: ChatId): map<Coin, Stored> {
    if chat in st.watch then st.watch[chat] else map[]
  }

  /**
   * The write-through invariant: memory lists exactly the stored
   * subscribers, and exactly the stored watches with their stored statuses.
   */
  ghost predicate Mirrors(st: BotState) {
    && st.subscribers == st.db.subscribers.Keys
    && (forall chat, coin :: Current(st, chat, coin).Some? <==> WatchKey(chat, coin) in st.db.watches)
    && (forall k :: k in st.db.watches ==> Current(st, k.chat, k.coin) == Some(st.db.watches[k]))
  }

  /** The failure counters and alert flags of `b` are those of `a`. */
  predicate SameCounters(a: BotState, b: BotState) {
    && b.globalFailures == a.globalFailures && b.globalAlerted == a.globalAlerted
    && b.coinFailures == a.coinFailures && b.coinAlerted == a.coinAlerted
  }

  /** The constructor: subscribers and watches loaded from the store, counters cleared. */
  function Load(db: Store): (st: BotState)
    ensures Mirrors(st)
    ensures st.globalFailures == 0 && !st.globalAlerted && st.coinFailures == map[] && st.coinAlerted == {}
    ensures forall chat :: chat in st.watch <==> chat in WatchingChats(db)
    ensures st.db == db && st.subscribers == AllSubscribers(db)
    ensures forall chat :: chat in st.watch ==> st.watch[chat] == WatchesForChat(db, chat)
  {
    var watch := map chat | chat in WatchingChats(db) :: WatchesForChat(db, chat);
    BotState(db, AllSubscribers(db), watch, 0, false, map[], {})
  }

  /** `add_subscriber`: the store insert, the memory set, and an (existing or empty) watch map. */
  function AddSubscriber(st: BotState, chat: ChatId): (r: BotState)
    ensures chat in r.subscribers && chat in r.db.subscribers && chat in r.watch
    ensures r.subscribers == st.subscribers + {chat}
    ensures forall c, coin :: Current(r, c, coin) == Current(st, c, coin)
    ensures r.db.watches == st.db.watches
    ensures r.db == Database.AddSubscriber(st.db, chat).0
    ensures SameCounters(st, r)
    ensures Mirrors(st) ==> Mirrors(r)
  {
    var (db, _) := Database.AddSubscriber(st.db, chat);
    st.(db := db, subscribers := st.subscribers + {chat}, watch := st.watch[chat := CoinsOf(st, chat)])
  }

  /** `set_watch`: upsert into the store and into the chat's memory map. */
  function SetWatch(st: BotState, chat: ChatId, coin: Coin, status: Stored): (r: BotState)
    ensures Current(r, chat, coin) == Some(status)
    ensures forall c, k :: (c, k) != (chat, coin) ==> Current(r, c, k) == Current(st, c, k)
    ensures r.subscribers == st.subscribers && r.db.subscribers == st.db.subscribers
    ensures r.db == Database.AddWatch(st.db, chat, coin, status)
    ensures SameCounters(st, r)
    ensures Mirrors(st) ==> Mirrors(r)
  {
    st.(db := Database.AddWatch(st.db, chat, coin, status),
        watch := st.watch[chat := CoinsOf(st, chat)[coin := status]])
  }

  /** `get_user_coins`, as the set of coins (the source sorts them for display). */
  function UserCoins(st: BotState, chat: ChatId): (r: set<Coin>)
    ensures forall coin :: coin in r <==> Current(st, chat, coin).Some?
    ensures Mirrors(st) ==> forall coin :: coin in r <==> WatchKey(chat, coin) in st.db.watches
  {
    CoinsOf(st, chat).Keys
  }

  /**
   * `remove_watch`: deletes the store row and the memory entry; the answer
   * is the store's (whether the row existed).
   */
  function RemoveWatch(st: BotState, chat: ChatId, coin: Coin): (r: (BotState, bool))
    ensures r.1 <==> WatchKey(chat, coin) in st.db.watches
    ensures Current(r.0, chat, coin) == None
    ensures forall c, k :: (c, k) != (chat, coin) ==> Current(r.0, c, k) == Current(st, c, k)
    ensures r.0.db == Database.RemoveWatch(st.db, chat, coin).0 && r.0.subscribers == st.subscribers
    ensures SameCounters(st, r.0)
    ensures Mirrors(st) ==> Mirrors(r.0)
  {
    var (db, removed) := Database.RemoveWatch(st.db, chat, coin);
    var watch := if chat in st.watch then st.watch[chat := st.watch[chat] - {coin}] else st.watch;
    (st.(db := db, watch := watch), removed)
  }

  /** The store rows left once `remove_watch` has run for each of `coins` in turn. */
  function RemoveEach(db: Store, chat: ChatId, coins: seq<Coin>): Store
    decreases |coins|
  {
    if coins == [] then db else RemoveEach(Database.RemoveWatch(db, chat, coins[0]).0, chat, coins[1..])
  }

  /** Removing the coins one by one, in any order, deletes exactly those rows of the chat. */
  lemma {:induction false} RemoveEachDeletesListed(db: Store, chat: ChatId, coins: seq<Coin>)
    ensures RemoveEach(db, chat, coins).subscribers == db.subscribers
    ensures forall k :: k in RemoveEach(db, chat, coins).watches <==>
      k in db.watches && !(k.chat == chat && k.coin in coins)
    ensures forall k :: k in RemoveEach(db, chat, coins).watches ==> RemoveEach(db, chat, coins).watches[k] == db.watches[k]
    decreases |coins|
  {
    if coins != [] {
      var db1 := Database.RemoveWatch(db, chat, coins[0]).0;
      RemoveEachDeletesListed(db1, chat, coins[1..]);
      forall k
        ensures k in RemoveEach(db, chat, coins).watches <==> k in db.watches && !(k.chat == chat && k.coin in coins)
      {
        assert k.coin in coins <==> k.coin == coins[0] || k.coin in coins[1..];
      }
    }
  }

  /**
   * `clear_watches`: `remove_watch` for every coin of the chat's memory map
   * (`order` is the map's iteration order), then an empty map for the chat.
   */
  function ClearWatches(st: BotState, chat: ChatId, order: seq<Coin>): (r: BotState)
    requires forall coin :: coin in order <==> coin in CoinsOf(st, chat)
    ensures chat in r.watch && r.watch[chat] == map[]
    ensures forall c :: c != chat ==> (c in r.watch <==> c in st.watch)
    ensures forall c :: c != chat && c in st.watch ==> r.watch[c] == st.watch[c]
    ensures r.db.subscribers == st.db.subscribers && r.subscribers == st.subscribers
    ensures r.db == RemoveEach(st.db, chat, order)
    ensures SameCounters(st, r)
    ensures Mirrors(st) ==> Mirrors(r)
  {
    RemoveEachDeletesListed(st.db, chat, order);
    st.(db := RemoveEach(st.db, chat, order), watch := st.watch[chat := map[]])
  }

  /**
   * `update_status`: writes (store UPDATE and memory entry) exactly when the
   * current memory value, possibly absent, differs from `status`.
   */
  function UpdateStatus(st: BotState, chat: ChatId, coin: Coin, status: Stored): (r: (BotState, bool))
    ensures r.1 <==> Current(st, chat, coin) != Some(status)
    ensures Current(r.0, chat, coin) == Some(status)
    ensures forall c, k :: (c, k) != (chat, coin) ==> Current(r.0, c, k) == Current(st, c, k)
    ensures r.0.subscribers == st.subscribers && r.0.db.subscribers == st.db.subscribers
    ensures !r.1 ==> r.0 == st
    ensures r.0.db == if r.1 then Database.UpdateWatchStatus(st.db, chat, coin, status) else st.db
    ensures r.0.globalAlerted == st.globalAlerted && r.0.globalFailures == st.globalFailures
    ensures r.0.coinFailures == st.coinFailures && r.0.coinAlerted == st.coinAlerted
  {
    if Current(st, chat, coin) != Some(status) then
      (st.(db := Database.UpdateWatchStatus(st.db, chat, coin, status),
           watch := st.watch[chat := CoinsOf(st, chat)[coin := status]]), true)
    else (st, false)
  }

  /** The second of two identical `update_status` calls reports no change and changes nothing. */
  lemma UpdateStatusTwice(st: BotState, chat: ChatId, coin: Coin, status: Stored)
    ensures var r := UpdateStatus(st, chat, coin, status).0;
      UpdateStatus(r, chat, coin, status) == (r, false)
  {
  }

  /** Writing through to an existing watch keeps memory and store in step. */
  lemma UpdateStatusPreservesMirrors(st: BotState, chat: ChatId, coin: Coin, status: Stored)
    requires Mirrors(st)
    requires Current(st, chat, coin).Some?
    ensures Mirrors(UpdateStatus(st, chat, coin, status).0)
  {
  }

  /**
   * On a watch missing from memory the two copies part: memory inserts the
   * status while the store's UPDATE matches no row.
   */
  lemma UpdateStatusOnMissingWatchDiverges(st: BotState, chat: ChatId, coin: Coin, status: Stored)
    requires Mirrors(st)
    requires Current(st, chat, coin).None?
    ensures !Mirrors(UpdateStatus(st, chat, coin, status).0)
  {
    var r := UpdateStatus(st, chat, coin, status).0;
    assert Current(r, chat, coin).Some? && WatchKey(chat, coin) !in r.db.watches;
  }

  /** `increment_global_failures`: one more failure, and the new count. */
  function IncrementGlobalFailures(st: BotState): (r: (BotState, nat))
    ensures r.1 == st.globalFailures + 1 && r.0.globalFailures == r.1
    ensures r.0 == st.(globalFailures := r.1)
  {
    (st.(globalFailures := st.globalFailures + 1), st.globalFailures + 1)
  }

  /** `reset_global_failures`: no failures counted and no alert outstanding. */
  function ResetGlobalFailures(st: BotState): (r: BotState)
    ensures r.globalFailures == 0 && !r.globalAlerted
    ensures r == st.(globalFailures := 0, globalAlerted := false)
  {
    st.(globalFailures := 0, globalAlerted := false)
  }

  /** `increment_coin_failure`: the coin's count, from 0 when absent, plus one. */
  function IncrementCoinFailure(st: BotState, coin: Coin): (r: (BotState, nat))
    ensures r.1 == (if coin in st.coinFailures then st.coinFailures[coin] else 0) + 1
    ensures coin in r.0.coinFailures && r.0.coinFailures[coin] == r.1
    ensures r.0.coinFailures.Keys == st.coinFailures.Keys + {coin}
    ensures forall c :: c in st.coinFailures && c != coin ==> r.0.coinFailures[c] == st.coinFailures[c]
  {
    var n := (if coin in st.coinFailures then st.coinFailures[coin] else 0) + 1;
    (st.(coinFailures := st.coinFailures[coin := n]), n)
  }

  /** `reset_coin_failure`: the coin leaves both the failure map and the alerted set. */
  function ResetCoinFailure(st: BotState, coin: Coin): (r: BotState)
    ensures coin !in r.coinFailures && coin !in r.coinAlerted
    ensures r.coinFailures.Keys == st.coinFailures.Keys - {coin}
    ensures forall c :: c in r.coinFailures ==> r.coinFailures[c] == st.coinFailures[c]
    ensures r.coinAlerted == st.coinAlerted - {coin}
    ensures r.watch == st.watch && r.db == st.db
  {
    st.(coinFailures := st.coinFailures - {coin}, coinAlerted := st.coinAlerted - {coin})
  }

  /** `mark_coin_alerted`. */
  function MarkCoinAlerted(st: BotState, coin: Coin): (r: BotState)
    ensures r.coinAlerted == st.coinAlerted + {coin}
    ensures r.coinFailures == st.coinFailures && r.watch == st.watch
  {
    st.(coinAlerted := st.coinAlerted + {coin})
  }

  /** `is_coin_alerted`. */
  predicate IsCoinAlerted(st: BotState, coin: Coin) {
    coin in st.coinAlerted
  }

  /** Counting a failure for a coin and then resetting it forgets that coin entirely. */
  lemma ResetAfterIncrementForgetsCoin(st: BotState, coin: Coin)
    requires coin !in st.coinFailures && coin !in st.coinAlerted
    ensures var r := ResetCoinFailure(MarkCoinAlerted(IncrementCoinFailure(st, coin).0, coin), coin);
      r.coinFailures == st.coinFailures && r.coinAlerted == st.coinAlerted && !IsCoinAlerted(r, coin)
  {
    var r := ResetCoinFailure(MarkCoinAlerted(IncrementCoinFailure(st, coin).0, coin), coin);
    assert r.coinFailures.Keys == st.coinFailures.Keys;
  }
}

=== FILE: wrappers.dfy ===
/** Failure-carrying wrappers shared by every module of the model. */
module Wrappers {

  /** Python's `Optional[T]`: a value, or `None`. */
  datatype Option<+T> = None | Some(value: T) {

    function GetOr(default: T): T {
      match this
      case Some(v) => v
      case None => default
    }
  }

  /** A computation that either returns a value or raises the error `error`. */
  datatype Result<+T, +E> = Ok(value: T) | Err(error: E)
}
